=== FILE: README.md ===
# DevQuest analytics sync core in Dafny

This project models the sync path of the DevQuest analytics service. For one
user, the service gathers two things:

- every LeetCode submission, read page by page from the submissions feed;
- the user's tag statistics, from the GraphQL skill-stats query.

It then merges the fetched questions into the user's stored progress record and
recomputes the aggregate counts: `total_solved`, `tag_stats` and `by_topic`.

The network, the database and the clock are not modelled. Each becomes an input:

- The feed is an oracle listing, for each request the loop issues, what each
  attempt of that request yields.
- The GraphQL exchange is a `Transport` value: an exception, or a status code
  and an optional decoded JSON body.
- The stored record is an `Option<UserProgress>`.
- The clock is an integer `now`.
- The save is a boolean saying whether it succeeded.

Modules:

- `Wrappers`: `Option` and `Result`.
- `Json`: decoded JSON values, with Python truthiness and `dict.get`.
- `Models`: the pydantic records and their field defaults.
- `Decimal`: `str(int)`, shown to be injective, so distinct question ids give
  distinct keys.
- `Pagination`: `fetch_all_submissions`, plus the three-try retry of
  `_make_request`.
- `TagStatsQuery`: the response handling of `fetch_user_tag_stats`.
- `Merge`: the `questions_map` dedup, the merge into the stored list, and
  `total_solved`.
- `Topics`: building `TagStat` records from the tier lists, and the `by_topic`
  fold.
- `Sync`: `sync_user_submissions` without its I/O, and the service's test
  scenarios.

The model follows these choices of the code in `leetcode_service.py`:

- New questions are appended after the stored ones (line 208).
- A re-seen question's `attempts` grows by one (line 205).
- `last_attempted` is overwritten with the fetched value (line 204).
- `by_topic` iterates the tiers advanced, intermediate, fundamental, so the
  fundamental tier wins a slug collision (lines 233-236).
- `total_solved` is the count of solved questions in the merged list
  (lines 211-216).

## Model

| member | source | states |
|---|---|---|
| Json.Get | leetcode_graphql.py:65 | `d.get(key, default)` gives the stored value for a present key and the default for a missing one, and fails on anything that is not a dict |
| Json.Truthy | leetcode_service.py:219 | a value is truthy exactly when it is none of null, `False`, `0`, `""`, `[]` and `{}` |
| Json.EmptyObjectIsFalsy | leetcode_service.py:219 | the empty dict and `None` both fail the `if tag_stats:` guard |
| Models.DefaultAggregatedStatsIsZero | models.py:72-81 | a default aggregate has `total_solved` 0; empty difficulty, topic, language and badge collections; and no tag stats, problem counts or calendar stats |
| Models.DefaultTagStatsIsEmpty | models.py:25-28 | a default `TagStats` has three empty tiers |
| Models.DefaultCalendarStatsIsZero | models.py:54-66 | a default `CalendarStats` has no active years; empty date, month and year maps; and zero totals, streak and streak record |
| Decimal.NatToStringInjective | leetcode_service.py:174 | two different natural numbers never print to the same decimal string |
| Decimal.NatToString | leetcode_service.py:174 | the rendering of a natural number is a non-empty string of decimal digits, at least two long from 10 up, with no leading zero |
| Decimal.NatToStringValue | leetcode_service.py:174 | the digits of the rendering, read most significant first, spell the number itself |
| Decimal.IntToStringInjective | leetcode_service.py:174 | `str(question_id)` maps different ids to different keys, negatives included |
| Decimal.IntToString | leetcode_service.py:174 | `str(n)` starts with '-' exactly when n is negative, its digits (after the sign) spell the absolute value of n, and it has no leading zero |
| Pagination.RequestPage | leetcode_service.py:32-44 | a page is fetched exactly when, within the first three tries, an answer arrives before any non-retryable error, and the first such answer is the result |
| Pagination.RetryBudget | leetcode_service.py:33-37 | a non-retryable first error is not retried, and three retryable errors abandon the page |
| Pagination.Newer | leetcode_service.py:88-91 | the since-filter keeps no more entries than the page had, and every kept entry is strictly newer than `since` |
| Pagination.NewerContents | leetcode_service.py:88-91 | an entry survives the filter if and only if it is on the page and newer than `since` |
| Pagination.NewerKeepsAllNewer | leetcode_service.py:88-91 | a page whose entries are all newer passes the filter unchanged |
| Pagination.NewerAppend | leetcode_service.py:88-91 | the filter keeps page order and multiplicity: filtering a concatenation is the concatenation of the filtered parts |
| Pagination.NewerSingle | leetcode_service.py:88-91 | a single entry is kept exactly when its timestamp is greater than `since` |
| Pagination.Filters | leetcode_service.py:86 | the since-filter runs exactly when `last_sync_timestamp` is present and truthy in Python's sense |
| Pagination.Keep | leetcode_service.py:86-91 | the kept part of a page is never longer than the page, is the whole page without the filter, and holds only entries newer than `since` with it |
| Pagination.KeyParam | leetcode_service.py:66-68 | `lastkey` is sent exactly when the carried key is non-empty, with that key as its value |
| Pagination.Verdict | leetcode_service.py:79-111 | the loop stops on a failed request, an empty page, a page with nothing newer than a truthy `since`, or a kept page with a false `has_next`, and continues otherwise |
| Pagination.Paginate | leetcode_service.py:61-111 | the loop issues no more requests than there are outcomes, issues at least one when any outcome exists, and has issued one whenever it stops on a page's verdict |
| Pagination.PaginateCollects | leetcode_service.py:79-101 | the result is the accumulated list followed by the filtered pages kept before the loop stopped, in order |
| Pagination.PaginateRequests | leetcode_service.py:62-104 | the k-th request asks for limit 20 at offset 20·k; each later request carries the previous page's `last_key` exactly when that key was non-empty |
| Pagination.PaginateStops | leetcode_service.py:82-111 | every page before the final one continued, and the stop reason is the verdict on the final page |
| Pagination.FetchAllSubmissions | leetcode_service.py:46-114 | offsets 20·k and limit 20; no `lastkey` on the first request; later keys come from the pages that continued; the stop reason; the result is the kept pages in order |
| Pagination.KeptAreNewer | leetcode_service.py:86-97 | with a truthy `since`, every accumulated submission is newer than it |
| Pagination.FetchedAreNewer | leetcode_service.py:86-97 | with a truthy `last_sync_timestamp`, every returned submission has `timestamp > since` |
| Pagination.ZeroSinceIsNoFilter | leetcode_service.py:86 | a `since` of 0 gives the same requests, submissions and stop as no `since` |
| Pagination.NoFilterKeepsPage | leetcode_service.py:86 | without a truthy `since`, a page is kept whole |
| Pagination.FailureKeepsAccumulated | leetcode_service.py:109-111 | a failed request after n continuing pages stops the loop after n+1 requests, and returns what the first n pages gave, without raising |
| Pagination.PartlyOlderPageContinues | leetcode_service.py:86-104 | a page with some newer entries and `has_next` continues the loop, and exactly its newer entries are kept |
| TagStatsQuery.TagProblemCounts | leetcode_graphql.py:65 | the lookup succeeds exactly when the answer is a dict and every level present on the path is a dict; with the whole path present it yields `data.matchedUser.tagProblemCounts`, and with a level missing it yields the `{}` default |
| TagStatsQuery.InterpretTagStats | leetcode_graphql.py:58-69 | a non-None result is never JSON null and needs a 2xx response whose body is a JSON object without `errors`; for such a body the result is the `tagProblemCounts` leaf when it is present and not null, `{}` when a level is missing, and None when a level is not a dict or the leaf is null |
| TagStatsQuery.WellFormedAnswer | leetcode_graphql.py:65 | a well-formed answer yields `data.matchedUser.tagProblemCounts` |
| TagStatsQuery.ErrorsYieldNone | leetcode_graphql.py:61-63 | a body with an `errors` key yields None |
| TagStatsQuery.MissingLevelYieldsEmpty | leetcode_graphql.py:65 | a missing level on the path yields `{}`, not None |
| TagStatsQuery.NullLevelYieldsNone | leetcode_graphql.py:65-69 | a null level on the path makes the lookup raise, which is caught as None |
| Merge.StatusFor | leetcode_service.py:185 | the status is "solved" exactly when the label is "Accepted", and "attempted" otherwise |
| Merge.NewQuestion | leetcode_service.py:180-189 | the question a submission introduces has id `str(question_id)`, the submission's title, status "solved" exactly for "Accepted", `last_attempted` at the submission's timestamp, and one attempt |
| Merge.QuestionsMap | leetcode_service.py:172-189 | `questions_map` equals the first-occurrence reference; it has unique ids and at most one entry per submission; its keys are exactly the fetched question keys; every entry has one attempt |
| Merge.CollectFirst | leetcode_service.py:172-189 | the loop never changes or reorders an entry already in the map, and adds at most one entry per submission |
| Merge.QuestionsMapIsFirstOccurrences | leetcode_service.py:172-189 | the front-to-back loop builds exactly the list defined back to front by first occurrence |
| Merge.FirstOccurrencesKeys | leetcode_service.py:172-189 | the first-occurrence list is no longer than the fetch and covers exactly the fetched keys |
| Merge.FirstOccurrencesUnique | leetcode_service.py:176-177 | the first-occurrence list never repeats an id |
| Merge.FirstOccurrencesFresh | leetcode_service.py:186 | every question built from a submission starts with one attempt |
| Merge.FirstOccurrenceWins | leetcode_service.py:176-189 | every first occurrence contributes its question, and every question comes from a first occurrence |
| Merge.StatusFromFirstOccurrence | leetcode_service.py:176-185 | the question for an id is built from that id's first fetched submission, so it is solved exactly when that submission was accepted |
| Merge.DistinctKeysAllKept | leetcode_service.py:172-189 | when no two submissions share a question id, every submission yields its question, in fetch order |
| Merge.LastIndexOf | leetcode_service.py:195-197 | the id dict points at the last stored question with each id, and a lookup misses exactly for an id that is not stored |
| Merge.Refresh | leetcode_service.py:202-205 | a stored question seen again keeps its id and title, takes the fetched status and `last_attempted`, and gains one attempt |
| Merge.FindById | leetcode_service.py:199-202 | a lookup misses exactly when the id is absent; in a list with unique ids it finds the one question with that id |
| Merge.UnseenContents | leetcode_service.py:206-208 | the questions that get appended are exactly the fetched ones whose id is not stored |
| Merge.MergeInto | leetcode_service.py:199-208 | the merged list is the list plus one entry per unseen fetched question |
| Merge.MergeIntoAppends | leetcode_service.py:206-208 | the unseen fetched questions follow the existing list, in fetch order |
| Merge.MergeIntoRefreshes | leetcode_service.py:199-205 | each stored position is refreshed exactly when the id dict points at it and its id was fetched, and is otherwise unchanged |
| Merge.MergeIntoStoredIds | leetcode_service.py:199-205 | stored positions keep their id and name, and a question whose id was not fetched is untouched |
| Merge.MergeQuestions | leetcode_service.py:195-208 | stored questions keep their positions, ids and names; unfetched questions are untouched; unseen questions are appended in order |
| Merge.MergeRefreshes | leetcode_service.py:200-205 | a re-seen question takes the fetched status and last-attempted time, keeps its name, and gains one attempt |
| Merge.MergePreservesUniqueIds | leetcode_service.py:195-208 | merging into a list with unique ids keeps the ids unique |
| Merge.UnseenUnique | leetcode_service.py:206-208 | the appended questions never repeat an id |
| Merge.MergeNothing | leetcode_service.py:199-208 | merging no questions leaves the list unchanged |
| Merge.MergedIds | leetcode_service.py:199-208 | the merged ids are exactly the stored ids plus the fetched ids |
| Merge.MergeIntoAsDeclaredRaises | leetcode_service.py:199-208 | against the declared question record, the merge raises exactly when a fetched id is already stored, and otherwise agrees with the attempt-counting merge |
| Merge.MergeIntoAsDeclared | leetcode_service.py:199-208 | against the declared question record, a merge that does not raise met no stored id among the fetched questions and appended all of them in order |
| Merge.ResyncRaisesAsDeclared | leetcode_service.py:205 | re-fetching a stored question raises when the record has no attempts field |
| Merge.ResyncCountsAttempt | leetcode_service.py:202-205 | with the attempts field, the same re-fetch refreshes the question to a second attempt at the new time |
| Merge.CountSolved | leetcode_service.py:211-214 | the count never exceeds the number of questions |
| Merge.CountSolvedIsMultiplicity | leetcode_service.py:211-216 | `total_solved` equals the number of "solved" entries among the question statuses |
| Merge.CountSolvedAppend | leetcode_service.py:211-214 | the count over two lists joined is the sum of the two counts |
| Topics.DecodeTagStat | leetcode_service.py:222 | a tag record's slug and solved count are the entry's `tagSlug` and `problemsSolved` values |
| Topics.TagStatRoundTrip | models.py:20-23 | a tag record sent in the platform's format is rebuilt unchanged |
| Topics.ExtraKeysIgnored | leetcode_service.py:222 | keys beyond the three declared fields do not change the record |
| Topics.MissingSlugRejected | leetcode_service.py:222 | an entry without `tagSlug` cannot become a tag record |
| Topics.DecodeTags | leetcode_service.py:221-223 | a decoded tier has one tag per entry |
| Topics.DecodeTagsContents | leetcode_service.py:221-229 | tag i is built from entry i, and a tier fails exactly when one of its entries fails |
| Topics.TagsRoundTrip | leetcode_service.py:221-229 | a tier sent in the platform's format decodes back to its tags |
| Topics.DecodeTier | leetcode_service.py:222 | a list is decoded entry by entry; any other value is accepted only when it is an empty string or an empty dict, and then gives no tags |
| Topics.TierOf | leetcode_service.py:222-228 | a present tier key gives the decoding of its value, a missing one an empty tier, and a non-dict answer fails |
| Topics.DecodeTagStats | leetcode_service.py:220-230 | the record exists exactly when all three tiers decode, and holds those tiers |
| Topics.TagStatsRoundTrip | leetcode_service.py:220-230 | a `TagStats` record sent in the platform's format decodes back to itself |
| Topics.MissingTierIsEmpty | leetcode_service.py:222-228 | absent advanced and intermediate keys become empty tiers |
| Topics.ByTopicKeys | leetcode_service.py:233-236 | the topic counts are keyed by exactly the tags' slugs |
| Topics.ByTopic | leetcode_service.py:235-236 | every tag's slug receives a count |
| Topics.ByTopicLastWins | leetcode_service.py:233-236 | a slug's count is that of the last tag carrying it |
| Topics.ByTopicAppend | leetcode_service.py:234-236 | folding two tag lists in turn gives the right-biased union of their folds |
| Topics.TopicCounts | leetcode_service.py:232-238 | `by_topic` is the advanced counts, overridden by the intermediate ones, overridden by the fundamental ones |
| Topics.TierPrecedence | leetcode_service.py:234-236 | on a slug collision the fundamental count wins, then the intermediate one, then the advanced one |
| Topics.TopicCountsKeys | leetcode_service.py:233-238 | the keys of `by_topic` are the slugs of the three tiers |
| Sync.TagSection | leetcode_service.py:219-238 | a falsy answer leaves the aggregate alone; a truthy one raises exactly when its tiers cannot be decoded, and otherwise replaces both `tag_stats` and `by_topic` with what the tiers give |
| Sync.NewUserProgress | leetcode_service.py:162-170 | a new user's record belongs to that user, has an empty leetcode list, no geeksforgeeks slot, and all-zero aggregate statistics |
| Sync.ApplySync | leetcode_service.py:161-248 | the sync raises exactly when the save fails or a truthy tag answer has undecodable tiers; a successful one keeps the owner or creates the record for the user, carries `now` and a leetcode slot, and sets `total_solved` to the count of "solved" questions |
| Sync.SyncUserSubmissions | leetcode_service.py:130-248 | for the whole sync with both fetches: it raises exactly when the save fails or the interpreted tag answer is truthy with undecodable tiers; on success the record keeps its owner or is created for the user, `last_updated` is `now`, the leetcode slot is present, and `total_solved` counts the solved questions |
| Sync.SyncedQuestions | leetcode_service.py:172-208 | the synced questions are the stored ones merged with the first occurrences of the fetch |
| Sync.NewUserSync | leetcode_service.py:161-170 | a new user gets the first-occurrence questions, no geeksforgeeks slot, and otherwise default stats |
| Sync.SyncKeepsUniqueIds | leetcode_service.py:195-208 | a stored list without duplicate ids stays without duplicates |
| Sync.SyncedIds | leetcode_service.py:195-208 | the synced ids are exactly the stored ids plus the fetched question keys |
| Sync.EmptyFetchKeepsQuestions | leetcode_service.py:172-208 | an empty fetch leaves the stored question list unchanged |
| Sync.NothingElseChanges | leetcode_service.py:161-238 | the user id, the geeksforgeeks slot, and the difficulty, language, problem-count, calendar and badge fields do not change |
| Sync.FalsyTagStatsUntouched | leetcode_service.py:219 | a None or empty tag answer leaves `tag_stats` and `by_topic` as stored |
| Sync.EmptyTagStatsLikeNone | leetcode_service.py:219 | an empty-dict tag answer gives exactly the result of a None answer |
| Sync.TagStatsReplaced | leetcode_service.py:219-238 | a truthy answer whose tiers decode (a missing tier as empty, extra keys ignored) makes the sync succeed, storing the decoded tiers and rebuilding `by_topic` from them alone |
| Sync.PlatformTagStatsStored | leetcode_service.py:219-238 | tag statistics in the platform's own format are stored exactly as sent, with `by_topic` rebuilt from them |
| Sync.MalformedTierRaises | leetcode_service.py:219-230 | a truthy answer whose advanced, intermediate or fundamental tier is null, a number, a boolean, or a non-empty string or dict makes the sync raise |
| Sync.TagQueryFailureHarmless | leetcode_service.py:146-156 | a failed tag query leaves the tag fields alone and the sync still succeeds |
| Sync.ResyncAddsNothing | leetcode_service.py:199-208 | syncing the same submissions again adds no question |
| Sync.EmptySubmissionsScenario | test_analytics_service.py:53-83 | an empty fetch for a new user stores an empty leetcode list with nothing solved |
| Sync.FirstTimeSyncScenario | test_analytics_service.py:86-131 | two accepted questions for a new user are both stored and both solved |
| Sync.ExistingDataScenario | test_analytics_service.py:134-195 | a stored question "1" plus a fetched question "2" gives the ids ["1", "2"], in that order |
| Sync.DifferentStatusesScenario | test_analytics_service.py:197-248 | one accepted and two failed submissions give one solved and two attempted questions |

## Left out

- HTTP, httpx and the backoff timing are replaced by the page oracle and the `Transport` value. So are the exponential delays, `asyncio.sleep(2)` between pages, the request headers and the GraphQL query text.
- The `asyncio.gather` fan-out is not modelled; the two fetch results are inputs.
- MongoDB is not modelled. `find_one` becomes the `existing` parameter and `save` becomes the `saved` flag; a failed save re-raises as `SaveFailed`.
- The `last_updated` wall clock is the `now` parameter.
- `datetime.fromtimestamp` is not modelled: `last_attempted` is the raw integer timestamp.
- The pages are oracle-limited. The Python loop is unbounded; the model stops with `OracleExhausted` when the listed outcomes run out while every page continued.
- A null `submissions_dump` is read as an absent one. The source fails on `len(None)` at leetcode_service.py:80 and leaves through the except branch, so it stops as `FetchFailed`, while the model stops as `EmptyPage`. The returned submissions are the same either way.
- `LeetCodeSubmission(**sub)` validation of raw feed entries (leetcode_service.py:114) is not modelled: feed entries are already typed submissions.
- Pydantic's lax coercion is not modelled. A tag entry must carry a string `tagName`, a string `tagSlug` and an integer `problemsSolved`; values pydantic would coerce, such as a numeric string, are treated as malformed.
- `_get_difficulty` and `_get_topics` (leetcode_service.py:116-122) are not modelled. Their constant values go in as fields the declared question record does not have, so nothing keeps them.
- The `time_spent` and `difficulty` arguments of the question constructor are dropped for the same reason.
- Insertion order of the `by_topic` dict is not modelled; it is a Dafny map.
- Floats are not represented: `success_rate`, `ProblemCounts.beats` and `DifficultyPercentage`.
- Calendar, heatmap, problem counts, language stats, badges and `fetch_all_stats` have no producing code in the sync path; only their record types and defaults are modelled.
- The Redis cache, the FastAPI routes, the Celery tasks, logging, configuration and test fixtures are outside the sync core.

## Findings

| source | as written | input that shows it | evidently intended | confidence | as-written member | corrected member |
|---|---|---|---|---|---|---|
| leetcode_service.py:205 | `existing.attempts += 1` reads a field that the declared `Question` record (models.py:6-10) does not have, so it raises AttributeError | a stored question "1" and a fetched submission of question 1 | the re-seen question gains one attempt and the sync succeeds | not executed; medium, because it assumes pydantic's default of dropping undeclared constructor arguments | Merge.ResyncRaisesAsDeclared | Merge.ResyncCountsAttempt |

=== FILE: decimal.dfy ===
/** Python's `str(n)` on integers: base-10 digits, no leading zeros, a
    leading '-' for negative values. Question ids are the decimal rendering
    of the platform's integer question id, so two submissions share an id
    exactly when they share the integer. */
module Decimal {

  function DigitChar(d: int): (c: char)
    requires 0 <= d < 10
    ensures '0' <= c <= '9'
    ensures c as int - '0' as int == d
  {
    ('0' as int + d) as char
  }

  predicate IsDigits(s: string) {
    forall i :: 0 <= i < |s| ==> '0' <= s[i] <= '9'
  }

  /** The number a string of decimal digits spells, most significant first. */
  function DigitsValue(s: string): (v: nat)
    requires IsDigits(s)
    decreases |s|
  {
    if |s| == 0 then 0 else DigitsValue(s[..|s| - 1]) * 10 + (s[|s| - 1] as int - '0' as int)
  }

  function NatToString(n: nat): (s: string)
    ensures |s| >= 1 && IsDigits(s)
    ensures n >= 10 ==> |s| >= 2
    ensures |s| > 1 ==> s[0] != '0'
    decreases n
  {
    if n < 10 then [DigitChar(n)] else NatToString(n / 10) + [DigitChar(n % 10)]
  }

  /** The digits of `NatToString(n)` spell `n`. */
  lemma {:induction false} NatToStringValue(n: nat)
    ensures DigitsValue(NatToString(n)) == n
    decreases n
  {
    if n >= 10 {
      var s := NatToString(n);
      NatToStringValue(n / 10);
      assert s[..|s| - 1] == NatToString(n / 10);
    }
  }

  function IntToString(n: int): (s: string)
    ensures |s| >= 1
    ensures n < 0 <==> s[0] == '-'
    ensures n >= 0 ==> IsDigits(s) && DigitsValue(s) == n
    ensures n < 0 ==> IsDigits(s[1..]) && DigitsValue(s[1..]) == -n
    // no leading zero, after the sign for a negative number
    ensures n >= 0 && |s| > 1 ==> s[0] != '0'
    ensures n < 0 ==> |s| >= 2 && s[1] != '0'
  {
    if n < 0 then
      NatToStringValue(-n);
      assert ("-" + NatToString(-n))[1..] == NatToString(-n);
      "-" + NatToString(-n)
    else
      NatToStringValue(n);
      NatToString(n)
  }

  lemma {:induction false} NatToStringInjective(a: nat, b: nat)
    requires NatToString(a) == NatToString(b)
    ensures a == b
    decreases a
  {
    var sa, sb := NatToString(a), NatToString(b);
    if a < 10 && b < 10 {
      assert sa[0] == DigitChar(a) && sb[0] == DigitChar(b);
    } else if a >= 10 && b >= 10 {
      assert sa == NatToString(a / 10) + [DigitChar(a % 10)];
      assert sb == NatToString(b / 10) + [DigitChar(b % 10)];
      assert DigitChar(a % 10) == sa[|sa| - 1] == sb[|sb| - 1] == DigitChar(b % 10);
      assert NatToString(a / 10) == sa[..|sa| - 1] == sb[..|sb| - 1] == NatToString(b / 10);
      NatToStringInjective(a / 10, b / 10);
    }
  }

  /** Distinct integers render to distinct strings. */
  lemma IntToStringInjective(a: int, b: int)
    requires IntToString(a) == IntToString(b)
    ensures a == b
  {
    if a < 0 && b < 0 {
      assert NatToString(-a) == IntToString(a)[1..] == IntToString(b)[1..] == NatToString(-b);
      NatToStringInjective(-a, -b);
    } else if a >= 0 && b >= 0 {
      NatToStringInjective(a, b);
    }
  }
}

=== FILE: graphql.dfy ===
/** The response interpretation of `LeetCodeGraphQLService.fetch_user_tag_stats`:
    from what the skill-stats query's HTTP exchange produced to the tag
    counts it returns, or None. The query text, headers and the HTTP call
    itself are abstracted into a `Transport` value. */
module TagStatsQuery {
  import opened Wrappers
  import opened Json

  /** What the POST produced: an exception before any response, or a
      response with its status code and its body decoded as JSON (None when
      the body is not JSON, so that `response.json()` raises). */
  datatype Transport = TransportError | Response(status: int, body: Option<Value>)

  /** `raise_for_status` passes exactly the 2xx statuses. */
  predicate IsSuccessStatus(status: int) {
    200 <= status < 300
  }

  /** Each level the lookup descends through is a dict, where a missing
      level counts as the `{}` default. */
  predicate LevelsAreDicts(data: Value) {
    && data.JObject?
    && ("data" in data.fields ==>
          && data.fields["data"].JObject?
          && ("matchedUser" in data.fields["data"].fields ==>
                data.fields["data"].fields["matchedUser"].JObject?))
  }

  /** All three levels are present, the first two as dicts. */
  predicate HasPath(data: Value) {
    && data.JObject? && "data" in data.fields
    && data.fields["data"].JObject? && "matchedUser" in data.fields["data"].fields
    && data.fields["data"].fields["matchedUser"].JObject?
    && "tagProblemCounts" in data.fields["data"].fields["matchedUser"].fields
  }

  /** `data.matchedUser.tagProblemCounts` of an answer that has the whole path. */
  function Leaf(data: Value): (v: Value)
    requires HasPath(data)
  {
    data.fields["data"].fields["matchedUser"].fields["tagProblemCounts"]
  }

  /** `data.get("data", {}).get("matchedUser", {}).get("tagProblemCounts", {})`;
      None when an intermediate value is not a dict. */
  function TagProblemCounts(data: Value): (r: Option<Value>)
    ensures r.Some? <==> LevelsAreDicts(data)
    ensures HasPath(data) ==> r == Some(Leaf(data))
    ensures LevelsAreDicts(data) && !HasPath(data) ==> r == Some(EmptyObject)
  {
    match Get(data, "data", EmptyObject)
    case None => None
    case Some(d) =>
      match Get(d, "matchedUser", EmptyObject)
      case None => None
      case Some(u) => Get(u, "tagProblemCounts", EmptyObject)
  }

  /** A 2xx response whose body is a JSON object without an `errors` key. */
  predicate CleanAnswer(t: Transport) {
    && t.Response?
    && IsSuccessStatus(t.status)
    && t.body.Some?
    && t.body.value.JObject?
    && "errors" !in t.body.value.fields
  }

  /** The value `fetch_user_tag_stats` returns. Every exception is caught and
      becomes None; a JSON `null` result is Python's None as well. */
  function InterpretTagStats(t: Transport): (r: Option<Value>)
    ensures r.Some? ==> r.value != JNull
    ensures r.Some? ==> CleanAnswer(t)
    // on a clean answer: the leaf when it is there, `{}` when a level is
    // missing, None when a level is not a dict or the leaf is null
    ensures CleanAnswer(t) ==>
      (r.Some? <==> LevelsAreDicts(t.body.value) && !(HasPath(t.body.value) && Leaf(t.body.value) == JNull))
    ensures CleanAnswer(t) && HasPath(t.body.value) && Leaf(t.body.value) != JNull ==>
      r == Some(Leaf(t.body.value))
    ensures CleanAnswer(t) && LevelsAreDicts(t.body.value) && !HasPath(t.body.value) ==>
      r == Some(EmptyObject)
  {
    match t
    case TransportError => None
    case Response(status, body) =>
      if !IsSuccessStatus(status) then None
      else match body
        case None => None
        case Some(data) =>
          // `"errors" in data` on a non-dict either raises or, when it is
          // true, returns None: the outcome is None either way
          if !data.JObject? || "errors" in data.fields then None
          else match TagProblemCounts(data)
            case None => None
            case Some(v) => if v == JNull then None else Some(v)
  }

  /** A well-formed answer yields the nested `tagProblemCounts` value. */
  lemma WellFormedAnswer(status: int, tiers: Value)
    requires IsSuccessStatus(status) && tiers != JNull
    ensures var user := JObject(map["tagProblemCounts" := tiers]);
      var body := JObject(map["data" := JObject(map["matchedUser" := user])]);
      InterpretTagStats(Response(status, Some(body))) == Some(tiers)
  {
  }

  /** A body with an `errors` key yields None, whatever else it holds. */
  lemma ErrorsYieldNone(status: int, fields: map<string, Value>)
    requires "errors" in fields
    ensures InterpretTagStats(Response(status, Some(JObject(fields)))) == None
  {
  }

  /** A missing level on the path defaults to `{}`, so the result is the
      empty dict, not None. */
  lemma MissingLevelYieldsEmpty(status: int, fields: map<string, Value>)
    requires IsSuccessStatus(status)
    requires "errors" !in fields
    requires "data" !in fields
      || (fields["data"].JObject? && "matchedUser" !in fields["data"].fields)
      || (fields["data"].JObject? && fields["data"].fields["matchedUser"].JObject?
          && "tagProblemCounts" !in fields["data"].fields["matchedUser"].fields)
    ensures InterpretTagStats(Response(status, Some(JObject(fields)))) == Some(EmptyObject)
  {
  }

  /** A null intermediate value (an unknown user's `matchedUser`, say) makes
      the next `.get` raise, so the result is None. */
  lemma NullLevelYieldsNone(status: int, fields: map<string, Value>)
    requires "errors" !in fields
    requires ("data" in fields && fields["data"] == JNull)
      || ("data" in fields && fields["data"].JObject? && "matchedUser" in fields["data"].fields
          && fields["data"].fields["matchedUser"] == JNull)
    ensures InterpretTagStats(Response(status, Some(JObject(fields)))) == None
  {
  }
}

=== FILE: json.dfy ===
/** Abstract JSON values as Python's `json` module decodes them, with the two
    pieces of Python semantics the sync path relies on: truthiness and
    `dict.get` with a default. Floating-point numbers are not represented. */
module Json {
  import opened Wrappers

  datatype Value =
    | JNull
    | JBool(b: bool)
    | JNum(n: int)
    | JString(s: string)
    | JArray(items: seq<Value>)
    | JObject(fields: map<string, Value>)

  /** Python's `bool(v)` for the decoded value: `None`, `False`, `0`, `""`,
      `[]` and `{}` are falsy, everything else is truthy. */
  predicate Truthy(v: Value)
    ensures Truthy(v) <==> v !in {JNull, JBool(false), JNum(0), JString(""), JArray([]), EmptyObject}
  {
    match v
    case JNull => false
    case JBool(b) => b
    case JNum(n) => n != 0
    case JString(s) => |s| > 0
    case JArray(items) => |items| > 0
    case JObject(fields) => |fields| > 0
  }

  /** `v.get(key, default)`: None when `v` is not a dict, which in Python
      raises `AttributeError`. */
  function Get(v: Value, key: string, default: Value): (r: Option<Value>)
    ensures r.Some? <==> v.JObject?
    ensures v.JObject? && key !in v.fields ==> r == Some(default)
    ensures v.JObject? && key in v.fields ==> r == Some(v.fields[key])
  {
    match v
    case JObject(fields) => if key in fields then Some(fields[key]) else Some(default)
    case _ => None
  }

  const EmptyObject: Value := JObject(map[])

  lemma EmptyObjectIsFalsy()
    ensures !Truthy(EmptyObject)
    ensures !Truthy(JNull)
  {
  }
}

=== FILE: merge.dfy ===
/** The question-list half of `AnalyticsService.sync_user_submissions`:
    building `questions_map` from the fetched submissions, merging it into
    the stored question list, and counting solved questions. */
module Merge {
  import opened Wrappers
  import opened Models
  import Decimal
  import Pagination

  type Submission = Pagination.Submission

  /** The submission status that marks a question solved. */
  const Accepted: string := "Accepted"
  const Solved: string := "solved"
  const Attempted: string := "attempted"

  /** `str(submission.question_id)`. */
  function QuestionKey(s: Submission): (key: string) {
    Decimal.IntToString(s.question_id)
  }

  /** A question is solved exactly when the submission's status is
      "Accepted", and attempted otherwise. */
  function StatusFor(display: string): (status: string)
    ensures status == Solved <==> display == Accepted
    ensures status == Attempted <==> display != Accepted
  {
    if display == Accepted then Solved else Attempted
  }

  /** The question a submission introduces: one attempt, last attempted at
      the submission's timestamp. */
  function NewQuestion(s: Submission): (q: Question)
    ensures q.id == QuestionKey(s) && q.name == s.title
    ensures q.status == Solved <==> s.status_display == Accepted
    ensures q.last_attempted == s.timestamp && q.attempts == 1
  {
    Question(QuestionKey(s), s.title, StatusFor(s.status_display), s.timestamp, 1)
  }

  function Ids(qs: seq<Question>): (ids: seq<string>)
    ensures |ids| == |qs|
    ensures forall i :: 0 <= i < |qs| ==> ids[i] == qs[i].id
  {
    seq(|qs|, i requires 0 <= i < |qs| => qs[i].id)
  }

  function Keys(subs: seq<Submission>): (keys: seq<string>)
    ensures |keys| == |subs|
    ensures forall i :: 0 <= i < |subs| ==> keys[i] == QuestionKey(subs[i])
  {
    seq(|subs|, i requires 0 <= i < |subs| => QuestionKey(subs[i]))
  }

  predicate UniqueIds(qs: seq<Question>) {
    forall i, j :: 0 <= i < j < |qs| ==> qs[i].id != qs[j].id
  }

  /** No earlier submission shares the question of submission `i`. */
  predicate FirstOccurrence(subs: seq<Submission>, i: int) {
    && 0 <= i < |subs|
    && forall j :: 0 <= j < i ==> QuestionKey(subs[j]) != QuestionKey(subs[i])
  }

  // ---------------------------------------------------------------------
  // questions_map

  lemma IdsAppend(a: seq<Question>, b: seq<Question>)
    ensures Ids(a + b) == Ids(a) + Ids(b)
  {
  }

  /** One iteration of the `for submission in submissions` loop. */
  function AddFirst(acc: seq<Question>, s: Submission): (r: seq<Question>) {
    if QuestionKey(s) in Ids(acc) then acc else acc + [NewQuestion(s)]
  }

  /** The loop from map state `acc`; the map is kept as its entries in
      insertion order. */
  function CollectFirst(subs: seq<Submission>, acc: seq<Question>): (r: seq<Question>)
    // entries already in the map stay where they are; each submission adds
    // at most one
    ensures acc <= r
    ensures |r| <= |acc| + |subs|
    decreases |subs|
  {
    if |subs| == 0 then acc else CollectFirst(subs[1..], AddFirst(acc, subs[0]))
  }

  /** An independent statement of `questions_map` by recursion from the
      end: the last submission adds a question exactly when no earlier
      submission shares its id. */
  function FirstOccurrences(subs: seq<Submission>): (r: seq<Question>)
    decreases |subs|
  {
    if |subs| == 0 then []
    else
      var init := subs[..|subs| - 1];
      var last := subs[|subs| - 1];
      FirstOccurrences(init) + (if QuestionKey(last) in Keys(init) then [] else [NewQuestion(last)])
  }

  /** `questions_map`: one question per distinct `str(question_id)`, built
      from that id's first submission, in first-encountered order. */
  function QuestionsMap(subs: seq<Submission>): (qm: seq<Question>)
    ensures qm == FirstOccurrences(subs)
    ensures UniqueIds(qm)
    ensures |qm| <= |subs|
    ensures forall k :: k in Ids(qm) <==> k in Keys(subs)
    ensures forall p :: 0 <= p < |qm| ==> qm[p].attempts == 1
  {
    QuestionsMapIsFirstOccurrences(subs);
    FirstOccurrencesKeys(subs);
    FirstOccurrencesUnique(subs);
    FirstOccurrencesFresh(subs);
    CollectFirst(subs, [])
  }

  lemma {:induction false} CollectFirstSnoc(subs: seq<Submission>, s: Submission, acc: seq<Question>)
    ensures CollectFirst(subs + [s], acc) == AddFirst(CollectFirst(subs, acc), s)
    decreases |subs|
  {
    if |subs| > 0 {
      assert (subs + [s])[0] == subs[0];
      assert (subs + [s])[1..] == subs[1..] + [s];
      CollectFirstSnoc(subs[1..], s, AddFirst(acc, subs[0]));
    }
  }

  lemma KeysSnoc(subs: seq<Submission>)
    requires |subs| > 0
    ensures Keys(subs) == Keys(subs[..|subs| - 1]) + [QuestionKey(subs[|subs| - 1])]
  {
  }

  /** The first-occurrence list covers exactly the fetched ids. */
  lemma {:induction false} FirstOccurrencesKeys(subs: seq<Submission>)
    ensures |FirstOccurrences(subs)| <= |subs|
    ensures forall k :: k in Ids(FirstOccurrences(subs)) <==> k in Keys(subs)
    decreases |subs|
  {
    if |subs| > 0 {
      var init := subs[..|subs| - 1];
      var last := subs[|subs| - 1];
      var fo := FirstOccurrences(init);
      var add := if QuestionKey(last) in Keys(init) then [] else [NewQuestion(last)];
      FirstOccurrencesKeys(init);
      KeysSnoc(subs);
      IdsAppend(fo, add);
      assert Ids(FirstOccurrences(subs)) == Ids(fo) + Ids(add);
      assert Ids(add) == if QuestionKey(last) in Keys(init) then [] else [QuestionKey(last)];
      forall k
        ensures k in Ids(FirstOccurrences(subs)) <==> k in Keys(subs)
      {
        assert k in Ids(fo) + Ids(add) <==> k in Ids(fo) || k in Ids(add);
        assert k in Keys(subs) <==> k in Keys(init) || k == QuestionKey(last);
      }
    }
  }

  /** The first-occurrence list never repeats an id. */
  lemma {:induction false} FirstOccurrencesUnique(subs: seq<Submission>)
    ensures UniqueIds(FirstOccurrences(subs))
    decreases |subs|
  {
    if |subs| > 0 {
      var init := subs[..|subs| - 1];
      var last := subs[|subs| - 1];
      FirstOccurrencesUnique(init);
      FirstOccurrencesKeys(init);
      var fo := FirstOccurrences(init);
      if QuestionKey(last) !in Keys(init) {
        assert forall p :: 0 <= p < |fo| ==> fo[p].id in Ids(fo);
      }
    }
  }

  /** Every question of the first-occurrence list starts with one attempt. */
  lemma {:induction false} FirstOccurrencesFresh(subs: seq<Submission>)
    ensures forall p :: 0 <= p < |FirstOccurrences(subs)| ==> FirstOccurrences(subs)[p].attempts == 1
    decreases |subs|
  {
    if |subs| > 0 {
      FirstOccurrencesFresh(subs[..|subs| - 1]);
    }
  }

  /** The loop builds exactly the first-occurrence list. */
  lemma {:induction false} QuestionsMapIsFirstOccurrences(subs: seq<Submission>)
    ensures CollectFirst(subs, []) == FirstOccurrences(subs)
    decreases |subs|
  {
    if |subs| > 0 {
      var init := subs[..|subs| - 1];
      var last := subs[|subs| - 1];
      assert subs == init + [last];
      QuestionsMapIsFirstOccurrences(init);
      CollectFirstSnoc(init, last, []);
      FirstOccurrencesKeys(init);
    }
  }

  lemma {:induction false} FirstOccurrencesComplete(subs: seq<Submission>, i: int)
    requires FirstOccurrence(subs, i)
    ensures NewQuestion(subs[i]) in FirstOccurrences(subs)
    decreases |subs|
  {
    var init := subs[..|subs| - 1];
    if i < |subs| - 1 {
      assert FirstOccurrence(init, i);
      FirstOccurrencesComplete(init, i);
    } else {
      assert QuestionKey(subs[i]) !in Keys(init);
    }
  }

  lemma FirstOccurrenceInPrefix(subs: seq<Submission>, i: int)
    requires |subs| > 0 && FirstOccurrence(subs[..|subs| - 1], i)
    ensures FirstOccurrence(subs, i)
  {
    var init := subs[..|subs| - 1];
    forall j | 0 <= j < i
      ensures QuestionKey(subs[j]) != QuestionKey(subs[i])
    {
      assert subs[j] == init[j] && subs[i] == init[i];
    }
  }

  lemma LastFirstOccurrence(subs: seq<Submission>)
    requires |subs| > 0 && QuestionKey(subs[|subs| - 1]) !in Keys(subs[..|subs| - 1])
    ensures FirstOccurrence(subs, |subs| - 1)
  {
    var init := subs[..|subs| - 1];
    forall j | 0 <= j < |subs| - 1
      ensures QuestionKey(subs[j]) != QuestionKey(subs[|subs| - 1])
    {
      assert Keys(init)[j] == QuestionKey(subs[j]);
    }
  }

  lemma {:induction false} FirstOccurrencesSound(subs: seq<Submission>, q: Question) returns (i: int)
    requires q in FirstOccurrences(subs)
    ensures FirstOccurrence(subs, i) && q == NewQuestion(subs[i])
    decreases |subs|
  {
    var init := subs[..|subs| - 1];
    var last := subs[|subs| - 1];
    var fo := FirstOccurrences(init);
    var tail := if QuestionKey(last) in Keys(init) then [] else [NewQuestion(last)];
    assert FirstOccurrences(subs) == fo + tail;
    if q in fo {
      i := FirstOccurrencesSound(init, q);
      FirstOccurrenceInPrefix(subs, i);
    } else {
      assert q in tail;
      i := |subs| - 1;
      LastFirstOccurrence(subs);
    }
  }

  /** When no two submissions share a question id, every submission
      contributes its question, in fetch order. */
  lemma {:induction false} DistinctKeysAllKept(subs: seq<Submission>)
    requires forall i, j :: 0 <= i < j < |subs| ==> QuestionKey(subs[i]) != QuestionKey(subs[j])
    ensures |QuestionsMap(subs)| == |subs|
    ensures forall i :: 0 <= i < |subs| ==> QuestionsMap(subs)[i] == NewQuestion(subs[i])
  {
    DistinctKeysFirstOccurrences(subs);
  }

  lemma {:induction false} DistinctKeysFirstOccurrences(subs: seq<Submission>)
    requires forall i, j :: 0 <= i < j < |subs| ==> QuestionKey(subs[i]) != QuestionKey(subs[j])
    ensures |FirstOccurrences(subs)| == |subs|
    ensures forall i :: 0 <= i < |subs| ==> FirstOccurrences(subs)[i] == NewQuestion(subs[i])
    decreases |subs|
  {
    if |subs| > 0 {
      var init := subs[..|subs| - 1];
      var last := subs[|subs| - 1];
      DistinctKeysFirstOccurrences(init);
      assert QuestionKey(last) !in Keys(init) by {
        forall j | 0 <= j < |init|
          ensures Keys(init)[j] != QuestionKey(last)
        {
          assert init[j] == subs[j];
        }
      }
      assert FirstOccurrences(subs) == FirstOccurrences(init) + [NewQuestion(last)];
    }
  }

  /** Only the first fetched submission per question id is used: every first
      occurrence contributes its question, and every question comes from a
      first occurrence. */
  lemma FirstOccurrenceWins(subs: seq<Submission>)
    ensures forall i :: FirstOccurrence(subs, i) ==> NewQuestion(subs[i]) in QuestionsMap(subs)
    ensures forall q :: q in QuestionsMap(subs) ==>
      exists i :: FirstOccurrence(subs, i) && q == NewQuestion(subs[i])
  {
    forall i | FirstOccurrence(subs, i)
      ensures NewQuestion(subs[i]) in QuestionsMap(subs)
    {
      FirstOccurrencesComplete(subs, i);
    }
    forall q | q in QuestionsMap(subs)
      ensures exists i :: FirstOccurrence(subs, i) && q == NewQuestion(subs[i])
    {
      var i := FirstOccurrencesSound(subs, q);
    }
  }

  /** Status mapping: the question with the id of a first occurrence is
      present, and is solved exactly when that submission's status is
      "Accepted". */
  lemma StatusFromFirstOccurrence(subs: seq<Submission>, i: int)
    requires FirstOccurrence(subs, i)
    ensures QuestionKey(subs[i]) in Ids(QuestionsMap(subs))
    ensures forall p :: 0 <= p < |QuestionsMap(subs)| && QuestionsMap(subs)[p].id == QuestionKey(subs[i]) ==>
      QuestionsMap(subs)[p] == NewQuestion(subs[i])
    ensures forall p :: 0 <= p < |QuestionsMap(subs)| && QuestionsMap(subs)[p].id == QuestionKey(subs[i]) ==>
      (QuestionsMap(subs)[p].status == Solved <==> subs[i].status_display == Accepted)
  {
    var qm := QuestionsMap(subs);
    forall p | 0 <= p < |qm| && qm[p].id == QuestionKey(subs[i])
      ensures qm[p] == NewQuestion(subs[i])
    {
      var j := FirstOccurrencesSound(subs, qm[p]);
      assert QuestionKey(subs[j]) == QuestionKey(subs[i]);
      assert j == i;
    }
  }

  // ---------------------------------------------------------------------
  // Merging into the stored list

  /** The position of the last id equal to `k`: the dict
      `{q.id: q for q in questions}` keeps the last question per id. */
  function LastIndexOf(ids: seq<string>, k: string): (r: Option<nat>)
    ensures r.None? <==> k !in ids
    ensures r.Some? ==> r.value < |ids| && ids[r.value] == k
    ensures r.Some? ==> forall j :: r.value < j < |ids| ==> ids[j] != k
    decreases |ids|
  {
    if |ids| == 0 then None
    else if ids[|ids| - 1] == k then Some(|ids| - 1)
    else
      var r := LastIndexOf(ids[..|ids| - 1], k);
      assert k in ids[..|ids| - 1] <==> k in ids;
      r
  }

  /** The first question with id `k`. */
  function FindById(qs: seq<Question>, k: string): (r: Option<Question>)
    ensures r.None? <==> k !in Ids(qs)
    ensures r.Some? ==> r.value in qs && r.value.id == k
    ensures forall i :: 0 <= i < |qs| && qs[i].id == k && UniqueIds(qs) ==> r == Some(qs[i])
    decreases |qs|
  {
    if |qs| == 0 then None
    else if qs[0].id == k then Some(qs[0])
    else
      var r := FindById(qs[1..], k);
      assert forall i :: 0 < i < |qs| ==> qs[i] == qs[1..][i - 1];
      assert k in Ids(qs) <==> k in Ids(qs[1..]);
      r
  }

  /** A stored question seen again: status and last-attempted time come from
      the fetched question, one more attempt is counted, the rest stays. */
  function Refresh(stored: Question, seen: Question): (q: Question)
    ensures q.id == stored.id && q.name == stored.name
    ensures q.status == seen.status && q.last_attempted == seen.last_attempted
    ensures q.attempts == stored.attempts + 1
  {
    stored.(status := seen.status, last_attempted := seen.last_attempted, attempts := stored.attempts + 1)
  }

  /** The fetched questions whose id is not among the stored ids, in order. */
  function Unseen(fetched: seq<Question>, storedIds: seq<string>): (r: seq<Question>)
    ensures |r| <= |fetched|
    decreases |fetched|
  {
    if |fetched| == 0 then []
    else (if fetched[0].id in storedIds then [] else [fetched[0]]) + Unseen(fetched[1..], storedIds)
  }

  /** Exactly the fetched questions with an id that is not stored are unseen. */
  lemma {:induction false} UnseenContents(fetched: seq<Question>, storedIds: seq<string>)
    ensures forall q :: q in Unseen(fetched, storedIds) <==> q in fetched && q.id !in storedIds
    decreases |fetched|
  {
    if |fetched| > 0 {
      UnseenContents(fetched[1..], storedIds);
      assert forall q :: q in fetched <==> q == fetched[0] || q in fetched[1..];
    }
  }

  /** What position `p` of the stored prefix holds after the merge: the
      question is refreshed when it is the one the id dict points to and
      its id was fetched. */
  function MergedAt(list: seq<Question>, storedIds: seq<string>, fetched: seq<Question>, p: int): (q: Question)
    requires 0 <= p < |storedIds| <= |list|
  {
    var seen := FindById(fetched, storedIds[p]);
    if LastIndexOf(storedIds, storedIds[p]) == Some(p) && seen.Some? then Refresh(list[p], seen.value) else list[p]
  }

  /** The `for qid, question in questions_map.items()` loop, from list state
      `list`, with the id dict built from `storedIds` before the loop: a
      fetched question whose id is stored refreshes the stored question the
      dict points to, any other is appended. */
  function MergeInto(list: seq<Question>, storedIds: seq<string>, fetched: seq<Question>): (r: seq<Question>)
    requires |storedIds| <= |list|
    ensures |r| == |list| + |Unseen(fetched, storedIds)|
    decreases |fetched|
  {
    if |fetched| == 0 then list
    else
      var q := fetched[0];
      match LastIndexOf(storedIds, q.id)
      case Some(p0) => MergeInto(list[p0 := Refresh(list[p0], q)], storedIds, fetched[1..])
      case None => MergeInto(list + [q], storedIds, fetched[1..])
  }

  lemma RestHasNoHeadId(fetched: seq<Question>)
    requires |fetched| > 0 && UniqueIds(fetched)
    ensures UniqueIds(fetched[1..])
    ensures FindById(fetched[1..], fetched[0].id).None?
  {
    var rest := fetched[1..];
    assert forall i :: 0 <= i < |rest| ==> rest[i] == fetched[i + 1];
  }

  /** Positions past the stored prefix are kept. */
  lemma {:induction false} MergeIntoKeepsExtra(list: seq<Question>, storedIds: seq<string>, fetched: seq<Question>)
    requires |storedIds| <= |list|
    ensures forall p :: |storedIds| <= p < |list| ==> MergeInto(list, storedIds, fetched)[p] == list[p]
    decreases |fetched|
  {
    if |fetched| > 0 {
      var q := fetched[0];
      match LastIndexOf(storedIds, q.id)
      case Some(p0) =>
        MergeIntoKeepsExtra(list[p0 := Refresh(list[p0], q)], storedIds, fetched[1..]);
      case None =>
        MergeIntoKeepsExtra(list + [q], storedIds, fetched[1..]);
    }
  }

  /** The unseen fetched questions follow the list, in order. */
  lemma {:induction false} MergeIntoAppends(list: seq<Question>, storedIds: seq<string>, fetched: seq<Question>)
    requires |storedIds| <= |list|
    ensures MergeInto(list, storedIds, fetched)[|list|..] == Unseen(fetched, storedIds)
    decreases |fetched|
  {
    if |fetched| > 0 {
      var q := fetched[0];
      var rest := fetched[1..];
      match LastIndexOf(storedIds, q.id)
      case Some(p0) =>
        MergeIntoAppends(list[p0 := Refresh(list[p0], q)], storedIds, rest);
        assert Unseen(fetched, storedIds) == Unseen(rest, storedIds);
      case None =>
        var next := list + [q];
        MergeIntoAppends(next, storedIds, rest);
        MergeIntoKeepsExtra(next, storedIds, rest);
        var r := MergeInto(next, storedIds, rest);
        assert r[|list|] == q;
        assert r[|list|..] == [q] + r[|next|..];
        assert Unseen(fetched, storedIds) == [q] + Unseen(rest, storedIds);
    }
  }

  /** Each stored position holds what `MergedAt` says, provided the fetched
      ids are unique, as the keys of `questions_map` are. */
  lemma {:induction false} MergeIntoRefreshes(list: seq<Question>, storedIds: seq<string>, fetched: seq<Question>)
    requires |storedIds| <= |list|
    requires UniqueIds(fetched)
    ensures forall p :: 0 <= p < |storedIds| ==>
      MergeInto(list, storedIds, fetched)[p] == MergedAt(list, storedIds, fetched, p)
    decreases |fetched|
  {
    if |fetched| > 0 {
      var q := fetched[0];
      var rest := fetched[1..];
      RestHasNoHeadId(fetched);
      match LastIndexOf(storedIds, q.id)
      case Some(p0) =>
        var next := list[p0 := Refresh(list[p0], q)];
        MergeIntoRefreshes(next, storedIds, rest);
        forall p | 0 <= p < |storedIds|
          ensures MergeInto(list, storedIds, fetched)[p] == MergedAt(list, storedIds, fetched, p)
        {
          if storedIds[p] != q.id {
            assert FindById(fetched, storedIds[p]) == FindById(rest, storedIds[p]);
          }
        }
      case None =>
        var next := list + [q];
        MergeIntoRefreshes(next, storedIds, rest);
        forall p | 0 <= p < |storedIds|
          ensures MergeInto(list, storedIds, fetched)[p] == MergedAt(list, storedIds, fetched, p)
        {
          assert FindById(fetched, storedIds[p]) == FindById(rest, storedIds[p]);
        }
    }
  }

  /** The merge of `questions_map` into the stored questions. */
  function MergeQuestions(stored: seq<Question>, fetched: seq<Question>): (r: seq<Question>)
    ensures |r| == |stored| + |Unseen(fetched, Ids(stored))|
    // stored questions keep their positions and identities
    ensures forall p :: 0 <= p < |stored| ==> r[p].id == stored[p].id && r[p].name == stored[p].name
    // questions not fetched are untouched
    ensures forall p :: 0 <= p < |stored| && stored[p].id !in Ids(fetched) ==> r[p] == stored[p]
    // unseen ids are appended after the stored questions, in order
    ensures r[|stored|..] == Unseen(fetched, Ids(stored))
  {
    MergeIntoAppends(stored, Ids(stored), fetched);
    MergeIntoStoredIds(stored, Ids(stored), fetched);
    MergeInto(stored, Ids(stored), fetched)
  }

  /** The stored prefix keeps its ids and names, and a question whose id was
      not fetched is untouched. */
  lemma {:induction false} MergeIntoStoredIds(list: seq<Question>, storedIds: seq<string>, fetched: seq<Question>)
    requires |storedIds| <= |list|
    ensures forall p :: 0 <= p < |storedIds| ==>
      var r := MergeInto(list, storedIds, fetched);
      && r[p].id == list[p].id && r[p].name == list[p].name
      && (storedIds[p] !in Ids(fetched) ==> r[p] == list[p])
    decreases |fetched|
  {
    if |fetched| > 0 {
      var q := fetched[0];
      var rest := fetched[1..];
      assert forall k :: k in Ids(rest) ==> k in Ids(fetched);
      match LastIndexOf(storedIds, q.id)
      case Some(p0) =>
        MergeIntoStoredIds(list[p0 := Refresh(list[p0], q)], storedIds, rest);
      case None =>
        MergeIntoStoredIds(list + [q], storedIds, rest);
    }
  }

  /** A re-seen question of a list with unique ids takes the fetched status
      and last-attempted time and one more attempt. */
  lemma MergeRefreshes(stored: seq<Question>, fetched: seq<Question>, p: int, i: int)
    requires UniqueIds(stored) && UniqueIds(fetched)
    requires 0 <= p < |stored| && 0 <= i < |fetched| && fetched[i].id == stored[p].id
    ensures MergeQuestions(stored, fetched)[p] == Refresh(stored[p], fetched[i])
  {
    var ids := Ids(stored);
    MergeIntoRefreshes(stored, ids, fetched);
    assert LastIndexOf(ids, ids[p]) == Some(p);
    assert FindById(fetched, ids[p]) == Some(fetched[i]);
  }

  /** The merge never duplicates an id of a list whose ids are unique. */
  lemma MergePreservesUniqueIds(stored: seq<Question>, fetched: seq<Question>)
    requires UniqueIds(stored) && UniqueIds(fetched)
    ensures UniqueIds(MergeQuestions(stored, fetched))
  {
    var r := MergeQuestions(stored, fetched);
    var ids := Ids(stored);
    var tail := Unseen(fetched, ids);
    UnseenUnique(fetched, ids);
    UnseenContents(fetched, ids);
    forall i, j | 0 <= i < j < |r|
      ensures r[i].id != r[j].id
    {
      if j < |stored| {
        assert r[i].id == stored[i].id && r[j].id == stored[j].id;
      } else if i < |stored| {
        assert r[j] == tail[j - |stored|];
        assert r[j] in tail;
        assert r[i].id == ids[i];
      } else {
        assert r[i] == tail[i - |stored|] && r[j] == tail[j - |stored|];
      }
    }
  }

  lemma {:induction false} UnseenUnique(fetched: seq<Question>, storedIds: seq<string>)
    requires UniqueIds(fetched)
    ensures UniqueIds(Unseen(fetched, storedIds))
    decreases |fetched|
  {
    if |fetched| > 0 {
      var rest := fetched[1..];
      assert UniqueIds(rest);
      UnseenUnique(rest, storedIds);
      UnseenContents(rest, storedIds);
      var u := Unseen(rest, storedIds);
      forall q | q in u
        ensures q.id != fetched[0].id
      {
        assert q in rest;
      }
    }
  }

  /** Merging nothing changes nothing. */
  lemma MergeNothing(stored: seq<Question>)
    ensures MergeQuestions(stored, []) == stored
  {
  }

  lemma InIds(qs: seq<Question>, q: Question)
    requires q in qs
    ensures q.id in Ids(qs)
  {
    var i :| 0 <= i < |qs| && qs[i] == q;
    assert Ids(qs)[i] == q.id;
  }

  /** An id of the merged list is stored or fetched. */
  lemma MergedIdsSound(stored: seq<Question>, fetched: seq<Question>, k: string)
    requires k in Ids(MergeQuestions(stored, fetched))
    ensures k in Ids(stored) || k in Ids(fetched)
  {
    var r := MergeQuestions(stored, fetched);
    var tail := Unseen(fetched, Ids(stored));
    var p :| 0 <= p < |r| && Ids(r)[p] == k;
    if p < |stored| {
      assert Ids(stored)[p] == k;
    } else {
      assert r[p] == tail[p - |stored|];
      UnseenContents(fetched, Ids(stored));
      InIds(fetched, r[p]);
    }
  }

  /** A fetched id that is not stored appears in the merged list. */
  lemma MergedIdsComplete(stored: seq<Question>, fetched: seq<Question>, k: string)
    requires k in Ids(fetched) && k !in Ids(stored)
    ensures k in Ids(MergeQuestions(stored, fetched))
  {
    var r := MergeQuestions(stored, fetched);
    var tail := Unseen(fetched, Ids(stored));
    var i :| 0 <= i < |fetched| && Ids(fetched)[i] == k;
    UnseenContents(fetched, Ids(stored));
    assert fetched[i] in tail;
    var t :| 0 <= t < |tail| && tail[t] == fetched[i];
    assert r[|stored| + t] == fetched[i];
    assert Ids(r)[|stored| + t] == k;
  }

  /** The merged ids are the stored ids together with the fetched ids. */
  lemma MergedIds(stored: seq<Question>, fetched: seq<Question>)
    ensures forall k :: k in Ids(MergeQuestions(stored, fetched)) <==> k in Ids(stored) || k in Ids(fetched)
  {
    var r := MergeQuestions(stored, fetched);
    forall k | k in Ids(r)
      ensures k in Ids(stored) || k in Ids(fetched)
    {
      MergedIdsSound(stored, fetched, k);
    }
    forall k | k in Ids(stored) || k in Ids(fetched)
      ensures k in Ids(r)
    {
      if k in Ids(stored) {
        var p :| 0 <= p < |stored| && Ids(stored)[p] == k;
        assert Ids(r)[p] == k;
      } else {
        MergedIdsComplete(stored, fetched, k);
      }
    }
  }

  // ---------------------------------------------------------------------
  // The merge against the declared question record

  /** The merge loop as it runs against the question record as declared,
      which has no `attempts` field: `existing.attempts += 1` raises
      AttributeError at the first fetched question whose id is stored. None
      stands for that exception. */
  function MergeIntoAsDeclared(list: seq<Question>, storedIds: seq<string>, fetched: seq<Question>): (r: Option<seq<Question>>)
    // when nothing raises, every fetched question was appended
    ensures r.Some? ==> r.value == list + fetched
    ensures r.Some? ==> forall i :: 0 <= i < |fetched| ==> fetched[i].id !in storedIds
    decreases |fetched|
  {
    if |fetched| == 0 then Some(list)
    else if fetched[0].id in storedIds then None
    else MergeIntoAsDeclared(list + [fetched[0]], storedIds, fetched[1..])
  }

  function MergeAsDeclared(stored: seq<Question>, fetched: seq<Question>): (r: Option<seq<Question>>) {
    MergeIntoAsDeclared(stored, Ids(stored), fetched)
  }

  /** As declared, the merge raises exactly when some fetched question is
      already stored, and otherwise agrees with the merge that counts
      attempts. */
  lemma {:induction false} MergeIntoAsDeclaredRaises(list: seq<Question>, storedIds: seq<string>, fetched: seq<Question>)
    requires |storedIds| <= |list|
    ensures MergeIntoAsDeclared(list, storedIds, fetched).None? <==>
      exists i :: 0 <= i < |fetched| && fetched[i].id in storedIds
    ensures MergeIntoAsDeclared(list, storedIds, fetched).Some? ==>
      MergeIntoAsDeclared(list, storedIds, fetched).value == MergeInto(list, storedIds, fetched)
    decreases |fetched|
  {
    if |fetched| > 0 {
      var rest := fetched[1..];
      MergeIntoAsDeclaredRaises(list + [fetched[0]], storedIds, rest);
      assert forall i :: 0 < i < |fetched| ==> fetched[i] == rest[i - 1];
      if exists i :: 0 <= i < |rest| && rest[i].id in storedIds {
        var i :| 0 <= i < |rest| && rest[i].id in storedIds;
        assert fetched[i + 1].id in storedIds;
      }
    }
  }

  /** A stored question "1" and a new submission of question 1. */
  function ResyncExample(now: int): (r: (seq<Question>, Submission)) {
    ([Question("1", "Two Sum", Solved, now - 7200, 1)],
     Pagination.Submission(1, 1, "Two Sum", "two-sum", Accepted, now, "100ms", "10MB", "python"))
  }

  lemma ResyncExampleQuestions(now: int)
    ensures QuestionsMap([ResyncExample(now).1]) == [Question("1", "Two Sum", Solved, now, 1)]
  {
    var again := ResyncExample(now).1;
    assert QuestionKey(again) == "1";
    DistinctKeysAllKept([again]);
  }

  /** Re-syncing a stored question raises as declared. */
  lemma ResyncRaisesAsDeclared(now: int)
    ensures MergeAsDeclared(ResyncExample(now).0, QuestionsMap([ResyncExample(now).1])).None?
  {
    var stored := ResyncExample(now).0;
    ResyncExampleQuestions(now);
    var qm := QuestionsMap([ResyncExample(now).1]);
    assert qm[0].id == "1" && Ids(stored) == ["1"];
  }

  /** The merge that counts attempts refreshes the re-seen question to its
      second attempt. */
  lemma ResyncCountsAttempt(now: int)
    ensures MergeQuestions(ResyncExample(now).0, QuestionsMap([ResyncExample(now).1]))
         == [Question("1", "Two Sum", Solved, now, 2)]
  {
    var stored := ResyncExample(now).0;
    ResyncExampleQuestions(now);
    var qm := QuestionsMap([ResyncExample(now).1]);
    MergeRefreshes(stored, qm, 0, 0);
    var merged := MergeQuestions(stored, qm);
    assert Unseen(qm, Ids(stored)) == [];
    assert merged == [merged[0]];
  }

  // ---------------------------------------------------------------------
  // total_solved

  function Statuses(qs: seq<Question>): (ss: seq<string>)
    ensures |ss| == |qs|
    ensures forall i :: 0 <= i < |qs| ==> ss[i] == qs[i].status
  {
    seq(|qs|, i requires 0 <= i < |qs| => qs[i].status)
  }

  /** `len([q for q in questions if q.status == "solved"])`. */
  function CountSolved(qs: seq<Question>): (n: nat)
    ensures n <= |qs|
    decreases |qs|
  {
    if |qs| == 0 then 0
    else CountSolved(qs[..|qs| - 1]) + (if qs[|qs| - 1].status == Solved then 1 else 0)
  }

  /** The count is the number of "solved" entries in the list. */
  lemma {:induction false} CountSolvedIsMultiplicity(qs: seq<Question>)
    ensures CountSolved(qs) == multiset(Statuses(qs))[Solved]
    decreases |qs|
  {
    if |qs| > 0 {
      var init := qs[..|qs| - 1];
      CountSolvedIsMultiplicity(init);
      assert Statuses(qs) == Statuses(init) + [qs[|qs| - 1].status];
    }
  }

  lemma {:induction false} CountSolvedAppend(a: seq<Question>, b: seq<Question>)
    ensures CountSolved(a + b) == CountSolved(a) + CountSolved(b)
    decreases |b|
  {
    if |b| > 0 {
      assert (a + b)[..|a + b| - 1] == a + b[..|b| - 1];
      CountSolvedAppend(a, b[..|b| - 1]);
    } else {
      assert a + b == a;
    }
  }
}

=== FILE: models.dfy ===
/** The persisted progress record and its parts. Each datatype mirrors a
    pydantic model; a constructor parameter with a default value mirrors a
    field default (`= 0`, `Field(default_factory=list)`, `= None`), so
    `AggregatedStats()` is the zero-valued record. Timestamps are raw epoch
    seconds. */
module Models {
  import opened Wrappers

  /** One question of a user's platform progress.
      The declared model carries only id, name, status and last_attempted;
      the sync service nevertheless constructs questions with `attempts = 1`
      and increments `attempts` on re-seen questions, so this record follows
      the service and carries the counter as well. The difficulty, topics and
      time_spent values the service passes are not declared fields and are
      not kept. */
  datatype Question = Question(
    id: string,
    name: string,
    status: string,
    last_attempted: int,
    attempts: nat)

  datatype PlatformProgress = PlatformProgress(questions: seq<Question>)

  datatype TagStat = TagStat(tagName: string, tagSlug: string, problemsSolved: int)

  /** The three skill tiers of the platform's tag statistics. */
  datatype TagStats = TagStats(
    advanced: seq<TagStat> := [],
    intermediate: seq<TagStat> := [],
    fundamental: seq<TagStat> := [])

  /** Per-platform slots; only `leetcode` is ever filled by the sync. */
  datatype ProgressData = ProgressData(
    leetcode: Option<PlatformProgress>,
    geeksforgeeks: Option<PlatformProgress>)

  datatype LanguageStat = LanguageStat(languageName: string, problemsSolved: int)

  /** Difficulty-keyed counts; the percentile (`beats`) map holds floats and is not represented. */
  datatype ProblemCounts = ProblemCounts(total: map<string, int>, solved: map<string, int>)

  datatype CalendarStreak = CalendarStreak(current: int := 0, longest: int := 0)

  datatype CalendarStats = CalendarStats(
    active_years: seq<int> := [],
    total_active_days: int := 0,
    streak: int := 0,
    submissions_by_date: map<string, int> := map[],
    monthly_submissions: map<string, int> := map[],
    yearly_submissions: map<string, int> := map[],
    streaks: CalendarStreak := CalendarStreak())

  datatype Badge = Badge(display_name: string, icon_url: string)

  /** The aggregate served to clients; `success_rate` (a float) is not represented. */
  datatype AggregatedStats = AggregatedStats(
    total_solved: int := 0,
    by_difficulty: map<string, int> := map[],
    by_topic: map<string, int> := map[],
    by_language: seq<LanguageStat> := [],
    tag_stats: Option<TagStats> := None,
    problem_counts: Option<ProblemCounts> := None,
    calendar_stats: Option<CalendarStats> := None,
    badges: seq<Badge> := [])

  /** One document per user. */
  datatype UserProgress = UserProgress(
    user_id: string,
    progress_data: ProgressData,
    aggregated_stats: AggregatedStats,
    last_updated: int)

  /** The aggregate of a user who has never been synced: every count zero,
      every collection empty, every optional breakdown absent. */
  predicate IsZeroStats(s: AggregatedStats) {
    && s.total_solved == 0
    && s.by_difficulty == map[]
    && s.by_topic == map[]
    && s.by_language == []
    && s.badges == []
    && s.tag_stats.None?
    && s.problem_counts.None?
    && s.calendar_stats.None?
  }

  lemma DefaultAggregatedStatsIsZero()
    ensures IsZeroStats(AggregatedStats())
  {
  }

  lemma DefaultTagStatsIsEmpty()
    ensures TagStats().advanced == [] && TagStats().intermediate == [] && TagStats().fundamental == []
  {
  }

  lemma DefaultCalendarStatsIsZero()
    ensures var c := CalendarStats();
      && c.active_years == []
      && c.total_active_days == 0 && c.streak == 0
      && c.submissions_by_date == map[] && c.monthly_submissions == map[] && c.yearly_submissions == map[]
      && c.streaks.current == 0 && c.streaks.longest == 0
  {
  }
}

=== FILE: pagination.dfy ===
/** The submission fetcher: `LeetCodeService.fetch_all_submissions` and the
    retrying page request beneath it, with HTTP abstracted into an oracle.

    The network is represented by one entry per request the loop would
    issue, in order: for page k, `pages[k]` lists what each successive
    attempt of the k-th request would produce. The loop itself is a
    recursive function over those outcomes, carrying the loop state
    (offset, last key, accumulated submissions) in a `Cursor`. */
module Pagination {
  import opened Wrappers
  import Json

  /** Page size sent as `limit`; the offset advances by the same amount. */
  const PageSize: int := 20

  /** Attempts per page request before the error propagates. */
  const MaxTries: nat := 3

  /** One entry of `submissions_dump`. The runtime, memory and language are
      carried but never inspected. */
  datatype Submission = Submission(
    id: int,
    question_id: int,
    title: string,
    title_slug: string,
    status_display: string,
    timestamp: int,
    runtime: string,
    memory: string,
    lang: string)

  /** The decoded body of one feed page; a slot is None when its key is
      absent, and the loop reads it as its default (`[]`, false, `""`).
      A null `has_next` or `last_key` is falsy and so behaves the same; a
      null `submissions_dump` is read as absent too, although the source
      then fails on `len(None)` and leaves through its except branch. */
  datatype PageBody = PageBody(
    submissions_dump: Option<seq<Submission>>,
    has_next: Option<bool>,
    last_key: Option<string>)

  /** What one HTTP attempt yields: a decoded body; an `httpx.HTTPError`
      (timeouts and non-2xx statuses included), which the backoff decorator
      retries; or any other exception (an undecodable or non-object body),
      which is not retried. */
  datatype Attempt = Answered(body: PageBody) | Retryable | Fatal

  /** What one page request yields after retries. */
  datatype PageOutcome = Fetched(body: PageBody) | Failed

  /** The query parameters of one request. */
  datatype Request = Request(offset: int, limit: int, lastkey: Option<string>)

  /** Why the loop ended. `OracleExhausted` is not a branch of the loop: it
      marks that the finite list of outcomes ran out while the feed still
      promised more pages. */
  datatype StopReason = EmptyPage | NothingNewer | LastPage | FetchFailed | OracleExhausted {
    /** The final page fetched contributed nothing to the result. */
    predicate DropsFinalPage() {
      EmptyPage? || NothingNewer? || FetchFailed?
    }
  }

  /** Loop state between two requests. */
  datatype Cursor = Cursor(offset: int, last_key: string, accumulated: seq<Submission>)

  /** The requests issued, the submissions returned, and why the loop stopped. */
  datatype Fetch = Fetch(requests: seq<Request>, submissions: seq<Submission>, stop: StopReason)

  // ---------------------------------------------------------------------
  // The retrying request

  /** Attempt `i` is the one that settles the request: it is within the
      try budget and every earlier attempt failed in a retryable way. */
  predicate Settles(tries: seq<Attempt>, i: int) {
    && 0 <= i < MaxTries
    && i < |tries|
    && forall j :: 0 <= j < i ==> tries[j].Retryable?
  }

  /** The retry loop from attempt `k` on. A list of attempts shorter than the
      budget stands for a transport that keeps failing. */
  function RetryFrom(tries: seq<Attempt>, k: nat): (o: PageOutcome)
    requires forall j :: 0 <= j < k && j < |tries| ==> tries[j].Retryable?
    ensures o.Fetched? <==> exists i :: k <= i && Settles(tries, i) && tries[i].Answered?
    ensures forall i :: k <= i && Settles(tries, i) && tries[i].Answered? ==> o == Fetched(tries[i].body)
    decreases MaxTries - k
  {
    if k >= MaxTries || k >= |tries| then
      assert forall i :: k <= i ==> !Settles(tries, i);
      Failed
    else
      match tries[k]
      case Answered(b) =>
        assert Settles(tries, k);
        assert forall i :: k < i ==> !Settles(tries, i);
        Fetched(b)
      case Fatal =>
        assert forall i :: k < i ==> !Settles(tries, i);
        Failed
      case Retryable =>
        RetryFrom(tries, k + 1)
  }

  /** `_make_request`: the page is fetched exactly when, within the first
      three attempts, an attempt answers and all attempts before it failed
      with a retryable error; the body is that attempt's. */
  function RequestPage(tries: seq<Attempt>): (o: PageOutcome)
    ensures o.Fetched? <==> exists i :: Settles(tries, i) && tries[i].Answered?
    ensures forall i :: Settles(tries, i) && tries[i].Answered? ==> o == Fetched(tries[i].body)
  {
    RetryFrom(tries, 0)
  }

  /** A fatal first attempt is never retried, and three retryable failures
      abandon the page whatever a fourth attempt would have produced. */
  lemma RetryBudget(tries: seq<Attempt>)
    ensures |tries| > 0 && tries[0].Fatal? ==> RequestPage(tries) == Failed
    ensures |tries| >= MaxTries && (forall j :: 0 <= j < MaxTries ==> tries[j].Retryable?) ==>
      RequestPage(tries) == Failed
  {
  }

  // ---------------------------------------------------------------------
  // The pagination loop

  /** `if last_sync_timestamp:` — None and 0 switch the filter off. */
  predicate Filters(since: Option<int>)
    ensures Filters(since) <==> since.Some? && Json.Truthy(Json.JNum(since.value))
  {
    since.Some? && since.value != 0
  }

  /** The submissions of a page strictly newer than `t`, in page order. */
  function Newer(page: seq<Submission>, t: int): (r: seq<Submission>)
    ensures |r| <= |page|
    ensures forall i :: 0 <= i < |r| ==> r[i].timestamp > t
    decreases |page|
  {
    if |page| == 0 then []
    else (if page[0].timestamp > t then [page[0]] else []) + Newer(page[1..], t)
  }

  /** The filter keeps exactly the page's newer entries. */
  lemma {:induction false} NewerContents(page: seq<Submission>, t: int)
    ensures forall s :: s in Newer(page, t) <==> s in page && s.timestamp > t
    decreases |page|
  {
    if |page| > 0 {
      NewerContents(page[1..], t);
      assert forall s :: s in page <==> s == page[0] || s in page[1..];
    }
  }

  /** The filter works entry by entry and keeps page order: filtering a
      concatenation filters each part in turn. */
  lemma {:induction false} NewerAppend(a: seq<Submission>, b: seq<Submission>, t: int)
    ensures Newer(a + b, t) == Newer(a, t) + Newer(b, t)
    decreases |a|
  {
    if |a| == 0 {
      assert a + b == b;
    } else {
      var head := if a[0].timestamp > t then [a[0]] else [];
      assert (a + b)[0] == a[0];
      assert (a + b)[1..] == a[1..] + b;
      assert Newer(a + b, t) == head + Newer(a[1..] + b, t);
      NewerAppend(a[1..], b, t);
    }
  }

  /** A single entry is kept exactly when it is newer. */
  lemma NewerSingle(s: Submission, t: int)
    ensures Newer([s], t) == (if s.timestamp > t then [s] else [])
  {
    assert [s][1..] == [];
  }

  /** A page with no older entry is kept whole. */
  lemma {:induction false} NewerKeepsAllNewer(page: seq<Submission>, t: int)
    requires forall i :: 0 <= i < |page| ==> page[i].timestamp > t
    ensures Newer(page, t) == page
    decreases |page|
  {
    if |page| > 0 {
      NewerKeepsAllNewer(page[1..], t);
    }
  }

  function Entries(body: PageBody): (entries: seq<Submission>) {
    body.submissions_dump.GetOr([])
  }

  function HasNext(body: PageBody): (more: bool) {
    body.has_next.GetOr(false)
  }

  function NextKey(body: PageBody): (key: string) {
    body.last_key.GetOr("")
  }

  /** The part of a page the loop keeps. */
  function Keep(since: Option<int>, page: seq<Submission>): (kept: seq<Submission>)
    ensures |kept| <= |page|
    ensures !Filters(since) ==> kept == page
    ensures Filters(since) ==> forall i :: 0 <= i < |kept| ==> kept[i].timestamp > since.value
  {
    if Filters(since) then Newer(page, since.value) else page
  }

  /** `lastkey` is sent only when the cursor holds a non-empty key. */
  function KeyParam(lastKey: string): (p: Option<string>)
    ensures p.Some? <==> lastKey != ""
    ensures p.Some? ==> p.value == lastKey
  {
    if lastKey != "" then Some(lastKey) else None
  }

  function RequestAt(cur: Cursor): (req: Request) {
    Request(cur.offset, PageSize, KeyParam(cur.last_key))
  }

  /** After this outcome the loop asks for another page. */
  predicate Continues(since: Option<int>, o: PageOutcome) {
    && o.Fetched?
    && |Entries(o.body)| > 0
    && |Keep(since, Entries(o.body))| > 0
    && HasNext(o.body)
  }

  /** The loop's decision after one page outcome: None to request the next
      page, otherwise why it stops. These are the three ways a fetched page
      ends pagination, plus a failed request. */
  function Verdict(since: Option<int>, o: PageOutcome): (v: Option<StopReason>)
    ensures v.None? <==> Continues(since, o)
    ensures v == Some(FetchFailed) <==> o.Failed?
    ensures v == Some(EmptyPage) <==> o.Fetched? && |Entries(o.body)| == 0
    ensures v == Some(NothingNewer) <==>
      o.Fetched? && |Entries(o.body)| > 0 && Filters(since) && |Keep(since, Entries(o.body))| == 0
    ensures v == Some(LastPage) <==>
      o.Fetched? && |Entries(o.body)| > 0 && |Keep(since, Entries(o.body))| > 0 && !HasNext(o.body)
    ensures v != Some(OracleExhausted)
  {
    match o
    case Failed => Some(FetchFailed)
    case Fetched(body) =>
      if |Entries(body)| == 0 then Some(EmptyPage)
      else if |Keep(since, Entries(body))| == 0 then Some(NothingNewer)
      else if !HasNext(body) then Some(LastPage)
      else None
  }

  /** What a page outcome contributes when the loop keeps it. */
  function KeptOf(since: Option<int>, o: PageOutcome): (kept: seq<Submission>) {
    if o.Fetched? then Keep(since, Entries(o.body)) else []
  }

  /** The in-order concatenation of what the first `n` outcomes contribute. */
  function KeptUpTo(outcomes: seq<PageOutcome>, since: Option<int>, n: nat): (kept: seq<Submission>)
    requires n <= |outcomes|
  {
    if n == 0 then [] else KeptOf(since, outcomes[0]) + KeptUpTo(outcomes[1..], since, n - 1)
  }

  /** How many fetched pages made it into the result. */
  function PagesKept(r: Fetch): (n: int) {
    if r.stop.DropsFinalPage() then |r.requests| - 1 else |r.requests|
  }

  /** The `while True` loop of `fetch_all_submissions` from state `cur`,
      answering the k-th request with `outcomes[k]`. Every exit path returns
      what has been accumulated, extended by the pages kept; none raises. */
  function Paginate(outcomes: seq<PageOutcome>, since: Option<int>, cur: Cursor): (r: Fetch)
    ensures |r.requests| <= |outcomes|
    ensures |outcomes| > 0 ==> |r.requests| > 0
    ensures r.stop.DropsFinalPage() ==> |r.requests| > 0
    decreases |outcomes|
  {
    if |outcomes| == 0 then
      Fetch([], cur.accumulated, OracleExhausted)
    else
      var req := RequestAt(cur);
      match outcomes[0]
      case Failed =>
        Fetch([req], cur.accumulated, FetchFailed)
      case Fetched(body) =>
        var page := Entries(body);
        if |page| == 0 then
          Fetch([req], cur.accumulated, EmptyPage)
        else
          var kept := Keep(since, page);
          if Filters(since) && |kept| == 0 then
            Fetch([req], cur.accumulated, NothingNewer)
          else if !HasNext(body) then
            Fetch([req], cur.accumulated + kept, LastPage)
          else
            var next := Cursor(cur.offset + PageSize, NextKey(body), cur.accumulated + kept);
            var rest := Paginate(outcomes[1..], since, next);
            Fetch([req] + rest.requests, rest.submissions, rest.stop)
  }

  /** The result is the accumulated prefix followed by the kept pages, in
      order: every page before the final one, and the final one unless its
      verdict dropped it. */
  lemma {:induction false} PaginateCollects(outcomes: seq<PageOutcome>, since: Option<int>, cur: Cursor)
    ensures var r := Paginate(outcomes, since, cur);
      && 0 <= PagesKept(r) <= |outcomes|
      && r.submissions == cur.accumulated + KeptUpTo(outcomes, since, PagesKept(r))
    decreases |outcomes|
  {
    if |outcomes| == 0 {
      assert Paginate(outcomes, since, cur).submissions == cur.accumulated + [];
    } else if Continues(since, outcomes[0]) {
      var next := Advance(since, cur, outcomes[0].body);
      PaginateCollects(outcomes[1..], since, next);
      CollectsAfterContinue(outcomes, since, cur);
    } else {
      CollectsAtStop(outcomes, since, cur);
    }
  }

  /** One continuing page: its kept entries come between the accumulated
      prefix and what the rest of the loop collects. */
  lemma CollectsAfterContinue(outcomes: seq<PageOutcome>, since: Option<int>, cur: Cursor)
    requires |outcomes| > 0 && Continues(since, outcomes[0])
    requires var rest := Paginate(outcomes[1..], since, Advance(since, cur, outcomes[0].body));
      && 0 <= PagesKept(rest) <= |outcomes| - 1
      && rest.submissions == Advance(since, cur, outcomes[0].body).accumulated
                             + KeptUpTo(outcomes[1..], since, PagesKept(rest))
    ensures var r := Paginate(outcomes, since, cur);
      && 0 <= PagesKept(r) <= |outcomes|
      && r.submissions == cur.accumulated + KeptUpTo(outcomes, since, PagesKept(r))
  {
    var kept := Keep(since, Entries(outcomes[0].body));
    var rest := Paginate(outcomes[1..], since, Advance(since, cur, outcomes[0].body));
    var r := Paginate(outcomes, since, cur);
    assert r == Fetch([RequestAt(cur)] + rest.requests, rest.submissions, rest.stop);
    assert PagesKept(r) == PagesKept(rest) + 1;
    var tail := KeptUpTo(outcomes[1..], since, PagesKept(rest));
    assert KeptUpTo(outcomes, since, PagesKept(r)) == kept + tail;
    assert rest.submissions == (cur.accumulated + kept) + tail;
  }

  /** A page that stops the loop contributes its kept entries exactly when
      the loop ends on it as the last page. */
  lemma CollectsAtStop(outcomes: seq<PageOutcome>, since: Option<int>, cur: Cursor)
    requires |outcomes| > 0 && !Continues(since, outcomes[0])
    ensures var r := Paginate(outcomes, since, cur);
      && 0 <= PagesKept(r) <= |outcomes|
      && r.submissions == cur.accumulated + KeptUpTo(outcomes, since, PagesKept(r))
  {
    var r := Paginate(outcomes, since, cur);
    if Verdict(since, outcomes[0]) == Some(LastPage) {
      var kept := Keep(since, Entries(outcomes[0].body));
      assert r.submissions == cur.accumulated + kept && PagesKept(r) == 1;
      assert KeptUpTo(outcomes, since, 1) == kept + [];
    } else {
      assert r.submissions == cur.accumulated + [] && PagesKept(r) == 0;
    }
  }

  /** The cursor the loop moves to after a page that continues. */
  function Advance(since: Option<int>, cur: Cursor, body: PageBody): (next: Cursor) {
    Cursor(cur.offset + PageSize, NextKey(body), cur.accumulated + Keep(since, Entries(body)))
  }

  /** Request parameters: the k-th request asks for `limit` 20 at an offset
      20·k past the starting one; the first sends the cursor's key and each
      later one sends the key of the page before it, each only when non-empty. */
  lemma {:induction false} PaginateRequests(outcomes: seq<PageOutcome>, since: Option<int>, cur: Cursor)
    ensures var r := Paginate(outcomes, since, cur);
      && (forall k :: 0 <= k < |r.requests| ==>
            r.requests[k].offset == cur.offset + PageSize * k && r.requests[k].limit == PageSize)
      && (|r.requests| > 0 ==> r.requests[0].lastkey == KeyParam(cur.last_key))
      && (forall k :: 0 <= k < |r.requests| - 1 ==>
            outcomes[k].Fetched? && r.requests[k + 1].lastkey == KeyParam(NextKey(outcomes[k].body)))
    decreases |outcomes|
  {
    var r := Paginate(outcomes, since, cur);
    if |outcomes| > 0 && Continues(since, outcomes[0]) {
      var next := Advance(since, cur, outcomes[0].body);
      PaginateRequests(outcomes[1..], since, next);
      var rest := Paginate(outcomes[1..], since, next);
      assert r.requests == [RequestAt(cur)] + rest.requests;
      assert forall k :: 0 < k < |r.requests| ==> r.requests[k] == rest.requests[k - 1];
      assert forall k :: 0 < k < |outcomes| ==> outcomes[k] == outcomes[1..][k - 1];
    }
  }

  /** How the loop ends: every page before the final one continued, and the
      stop reason is the verdict on the final page; or the outcomes ran out
      while every page continued. */
  lemma {:induction false} PaginateStops(outcomes: seq<PageOutcome>, since: Option<int>, cur: Cursor)
    ensures var r := Paginate(outcomes, since, cur);
      && (forall k :: 0 <= k < |r.requests| - 1 ==> Continues(since, outcomes[k]))
      && (r.stop != OracleExhausted ==>
            |r.requests| > 0 && Verdict(since, outcomes[|r.requests| - 1]) == Some(r.stop))
      && (r.stop == OracleExhausted ==>
            |r.requests| == |outcomes| && (|outcomes| > 0 ==> Continues(since, outcomes[|outcomes| - 1])))
    decreases |outcomes|
  {
    var r := Paginate(outcomes, since, cur);
    if |outcomes| > 0 && Continues(since, outcomes[0]) {
      var next := Advance(since, cur, outcomes[0].body);
      PaginateStops(outcomes[1..], since, next);
      var rest := Paginate(outcomes[1..], since, next);
      assert |r.requests| == 1 + |rest.requests| && r.stop == rest.stop;
      assert forall k :: 0 < k < |outcomes| ==> outcomes[k] == outcomes[1..][k - 1];
    }
  }

  /** `fetch_all_submissions(csrf_token, cookie, last_sync_timestamp)`:
      the k-th request asks for offset 20·k with limit 20; the first request
      carries no `lastkey`, and a later one carries the previous page's
      `last_key` exactly when that was non-empty. Pagination goes on only
      after a page that was kept and promised a successor, and stops on the
      verdict of the final page fetched. The result is the in-order
      concatenation of the kept pages. */
  function FetchAllSubmissions(pages: seq<seq<Attempt>>, last_sync_timestamp: Option<int>): (r: Fetch)
    ensures |r.requests| <= |pages|
    ensures forall k :: 0 <= k < |r.requests| ==>
      r.requests[k].offset == PageSize * k && r.requests[k].limit == PageSize
    ensures |r.requests| > 0 ==> r.requests[0].lastkey.None?
    ensures forall k :: 0 <= k < |r.requests| - 1 ==>
      && Continues(last_sync_timestamp, RequestPage(pages[k]))
      && r.requests[k + 1].lastkey == KeyParam(NextKey(RequestPage(pages[k]).body))
    ensures r.stop != OracleExhausted ==>
      |r.requests| > 0 && Verdict(last_sync_timestamp, RequestPage(pages[|r.requests| - 1])) == Some(r.stop)
    ensures r.stop == OracleExhausted ==> |r.requests| == |pages|
    ensures 0 <= PagesKept(r) <= |pages|
    ensures r.submissions == KeptUpTo(Outcomes(pages), last_sync_timestamp, PagesKept(r))
  {
    FetchRequests(pages, last_sync_timestamp);
    FetchStops(pages, last_sync_timestamp);
    PaginateCollects(Outcomes(pages), last_sync_timestamp, Start);
    Paginate(Outcomes(pages), last_sync_timestamp, Start)
  }

  /** The loop state before the first request. */
  const Start: Cursor := Cursor(0, "", [])

  lemma FetchRequests(pages: seq<seq<Attempt>>, since: Option<int>)
    ensures var r := Paginate(Outcomes(pages), since, Start);
      && (forall k :: 0 <= k < |r.requests| ==>
            r.requests[k].offset == PageSize * k && r.requests[k].limit == PageSize)
      && (|r.requests| > 0 ==> r.requests[0].lastkey.None?)
      && (forall k :: 0 <= k < |r.requests| - 1 ==>
            && Continues(since, RequestPage(pages[k]))
            && r.requests[k + 1].lastkey == KeyParam(NextKey(RequestPage(pages[k]).body)))
  {
    var outcomes := Outcomes(pages);
    PaginateRequests(outcomes, since, Start);
    PaginateStops(outcomes, since, Start);
    var r := Paginate(outcomes, since, Start);
    assert |r.requests| <= |outcomes|;
  }

  lemma FetchStops(pages: seq<seq<Attempt>>, since: Option<int>)
    ensures var r := Paginate(Outcomes(pages), since, Start);
      && |r.requests| <= |pages|
      && (r.stop != OracleExhausted ==>
            |r.requests| > 0 && Verdict(since, RequestPage(pages[|r.requests| - 1])) == Some(r.stop))
      && (r.stop == OracleExhausted ==> |r.requests| == |pages|)
  {
    var outcomes := Outcomes(pages);
    PaginateStops(outcomes, since, Start);
  }

  /** The outcome of every page request after its retries. */
  function Outcomes(pages: seq<seq<Attempt>>): (outcomes: seq<PageOutcome>)
    ensures |outcomes| == |pages|
    ensures forall k :: 0 <= k < |pages| ==> outcomes[k] == RequestPage(pages[k])
  {
    seq(|pages|, k requires 0 <= k < |pages| => RequestPage(pages[k]))
  }

  // ---------------------------------------------------------------------
  // Properties relating several runs

  /** Every kept submission is strictly newer than `since` when filtering is on. */
  lemma {:induction false} KeptAreNewer(outcomes: seq<PageOutcome>, since: Option<int>, n: nat)
    requires n <= |outcomes|
    requires Filters(since)
    ensures forall s :: s in KeptUpTo(outcomes, since, n) ==> s.timestamp > since.value
  {
    if n > 0 {
      KeptAreNewer(outcomes[1..], since, n - 1);
    }
  }

  /** With a truthy `last_sync_timestamp`, every returned submission has a
      timestamp strictly greater than it. */
  lemma FetchedAreNewer(pages: seq<seq<Attempt>>, since: Option<int>)
    requires Filters(since)
    ensures forall s :: s in FetchAllSubmissions(pages, since).submissions ==> s.timestamp > since.value
  {
    var r := FetchAllSubmissions(pages, since);
    KeptAreNewer(Outcomes(pages), since, PagesKept(r));
  }

  /** `since = 0` behaves exactly like no `since` at all. */
  lemma {:induction false} ZeroSinceIsNoFilter(outcomes: seq<PageOutcome>, cur: Cursor)
    ensures Paginate(outcomes, Some(0), cur) == Paginate(outcomes, None, cur)
    decreases |outcomes|
  {
    if |outcomes| > 0 && outcomes[0].Fetched? {
      var body := outcomes[0].body;
      assert Keep(Some(0), Entries(body)) == Entries(body) == Keep(None, Entries(body));
      var next := Advance(None, cur, body);
      assert next == Advance(Some(0), cur, body);
      ZeroSinceIsNoFilter(outcomes[1..], next);
      var a, b := Paginate(outcomes[1..], Some(0), next), Paginate(outcomes[1..], None, next);
      assert a == b;
    }
  }

  /** Without filtering, a page is kept whole. */
  lemma NoFilterKeepsPage(since: Option<int>, page: seq<Submission>)
    requires !Filters(since)
    ensures Keep(since, page) == page
  {
  }

  /** A failed request at page `n`, after `n` pages that each continued,
      ends the loop with exactly what those `n` pages accumulated: the same
      submissions as a feed whose outcomes ended before page `n`. */
  lemma {:induction false} FailureKeepsAccumulated(outcomes: seq<PageOutcome>, since: Option<int>, cur: Cursor, n: nat)
    requires n < |outcomes|
    requires outcomes[n].Failed?
    requires forall k :: 0 <= k < n ==> Continues(since, outcomes[k])
    ensures Paginate(outcomes, since, cur).stop == FetchFailed
    ensures |Paginate(outcomes, since, cur).requests| == n + 1
    ensures Paginate(outcomes, since, cur).submissions == Paginate(outcomes[..n], since, cur).submissions
    decreases n
  {
    if n > 0 {
      var body := outcomes[0].body;
      var next := Advance(since, cur, body);
      assert outcomes[1..][n - 1] == outcomes[n];
      assert outcomes[..n][1..] == outcomes[1..][..n - 1];
      FailureKeepsAccumulated(outcomes[1..], since, next, n - 1);
    }
  }

  /** A page that is only partly newer than `since` keeps exactly its newer
      entries, and the loop goes on when the feed has more pages. */
  lemma PartlyOlderPageContinues(since: Option<int>, o: PageOutcome, i: int)
    requires Filters(since) && o.Fetched? && HasNext(o.body)
    requires 0 <= i < |Entries(o.body)| && Entries(o.body)[i].timestamp > since.value
    ensures Continues(since, o)
    ensures forall s :: s in KeptOf(since, o) <==> s in Entries(o.body) && s.timestamp > since.value
  {
    NewerContents(Entries(o.body), since.value);
    assert Entries(o.body)[i] in KeptOf(since, o);
  }
}

=== FILE: sync.dfy ===
/** `AnalyticsService.sync_user_submissions` without its I/O: the stored
    record (or its absence), the fetch results, the clock and the outcome
    of the save are inputs, and the updated record or the exception the
    sync raises is the output. */
module Sync {
  import opened Wrappers
  import opened Json
  import opened Models
  import opened Merge
  import opened Topics
  import Pagination
  import TagStatsQuery

  /** The two exceptions that escape the sync once both fetches have
      returned: constructing `TagStat(**tag)` from a malformed tier entry
      (or calling `.get` on a truthy non-dict answer), and a failed save,
      which is logged and re-raised. */
  datatype SyncError = MalformedTagStats | SaveFailed

  /** The record created for a user without a stored one. */
  function NewUserProgress(userId: string, created: int): (u: UserProgress)
    ensures u.user_id == userId && u.last_updated == created
    ensures u.progress_data.leetcode == Some(PlatformProgress([]))
    ensures u.progress_data.geeksforgeeks.None?
    ensures IsZeroStats(u.aggregated_stats)
  {
    UserProgress(userId, ProgressData(Some(PlatformProgress([])), None), AggregatedStats(), created)
  }

  /** The leetcode questions of a record, an absent slot read as the empty
      list it is initialised to. */
  function Questions(u: UserProgress): (qs: seq<Question>) {
    match u.progress_data.leetcode
    case None => []
    case Some(p) => p.questions
  }

  /** The `if tag_stats:` block: a falsy answer leaves the aggregate alone;
      a truthy one replaces all three tiers and rebuilds `by_topic` from
      scratch, or raises when a tier cannot be turned into tag records. */
  function TagSection(stats: AggregatedStats, tagStats: Option<Value>): (r: Result<AggregatedStats, SyncError>)
    ensures (tagStats.None? || !Truthy(tagStats.value)) ==> r == Success(stats)
    ensures r.Failure? ==> r.error == MalformedTagStats
    // only a truthy answer whose tiers cannot be decoded raises
    ensures tagStats.Some? && Truthy(tagStats.value) ==> (r.Failure? <==> DecodeTagStats(tagStats.value).None?)
    ensures r.Success? && tagStats.Some? && Truthy(tagStats.value) ==>
      && DecodeTagStats(tagStats.value).Some?
      && r.value == stats.(tag_stats := DecodeTagStats(tagStats.value),
                           by_topic := TopicCounts(DecodeTagStats(tagStats.value).value))
  {
    if tagStats.None? || !Truthy(tagStats.value) then Success(stats)
    else match DecodeTagStats(tagStats.value)
      case None => Failure(MalformedTagStats)
      case Some(ts) => Success(stats.(tag_stats := Some(ts), by_topic := TopicCounts(ts)))
  }

  /** The sync from the point where both fetch results are in hand. */
  function ApplySync(existing: Option<UserProgress>, userId: string, submissions: seq<Pagination.Submission>,
                     tagStats: Option<Value>, now: int, saved: bool): (r: Result<UserProgress, SyncError>)
    // the record keeps its owner, or is created for `userId`
    ensures r.Success? ==> r.value.user_id == (if existing.Some? then existing.value.user_id else userId)
    ensures r.Success? ==> r.value.last_updated == now
    ensures r.Success? ==> r.value.progress_data.leetcode.Some?
    // total_solved is the number of "solved" questions in the merged list
    ensures r.Success? ==>
      r.value.aggregated_stats.total_solved == multiset(Statuses(Questions(r.value)))[Solved]
    // a failed save always surfaces
    ensures !saved ==> r.Failure?
    // and raising happens only for a failed save or undecodable tiers
    ensures r.Failure? <==> !saved || (tagStats.Some? && Truthy(tagStats.value) && DecodeTagStats(tagStats.value).None?)
  {
    var base := if existing.Some? then existing.value else NewUserProgress(userId, now);
    var merged := MergeQuestions(Questions(base), QuestionsMap(submissions));
    CountSolvedIsMultiplicity(merged);
    var stats := base.aggregated_stats.(total_solved := CountSolved(merged));
    match TagSection(stats, tagStats)
    case Failure(e) => Failure(e)
    case Success(s) =>
      if !saved then Failure(SaveFailed)
      else
        Success(base.(progress_data := base.progress_data.(leetcode := Some(PlatformProgress(merged))),
                      aggregated_stats := s,
                      last_updated := now))
  }

  /** The whole sync: the submissions are fetched without a since filter,
      and the tag statistics come from the skill-stats query. */
  function SyncUserSubmissions(existing: Option<UserProgress>, userId: string,
                               pages: seq<seq<Pagination.Attempt>>, tagAnswer: TagStatsQuery.Transport,
                               now: int, saved: bool): (r: Result<UserProgress, SyncError>)
    ensures r.Success? ==> r.value.user_id == (if existing.Some? then existing.value.user_id else userId)
    ensures r.Success? ==> r.value.last_updated == now
    ensures r.Success? ==> r.value.progress_data.leetcode.Some?
    ensures r.Success? ==>
      r.value.aggregated_stats.total_solved == multiset(Statuses(Questions(r.value)))[Solved]
    ensures !saved ==> r.Failure?
    ensures var tagStats := TagStatsQuery.InterpretTagStats(tagAnswer);
      r.Failure? <==> !saved || (tagStats.Some? && Truthy(tagStats.value) && DecodeTagStats(tagStats.value).None?)
  {
    var fetched := Pagination.FetchAllSubmissions(pages, None);
    ApplySync(existing, userId, fetched.submissions, TagStatsQuery.InterpretTagStats(tagAnswer), now, saved)
  }

  // ---------------------------------------------------------------------
  // Properties of one sync

  /** The questions after a successful sync are the stored ones merged with
      the first occurrences of the fetched submissions. */
  lemma SyncedQuestions(existing: Option<UserProgress>, userId: string, submissions: seq<Pagination.Submission>,
                        tagStats: Option<Value>, now: int, saved: bool)
    ensures var r := ApplySync(existing, userId, submissions, tagStats, now, saved);
      var stored := if existing.Some? then Questions(existing.value) else [];
      r.Success? ==> Questions(r.value) == MergeQuestions(stored, QuestionsMap(submissions))
  {
  }

  /** A new user gets a record with the fetched questions in first-seen
      order, no geeksforgeeks slot, and otherwise default statistics. */
  lemma NewUserSync(userId: string, submissions: seq<Pagination.Submission>, now: int)
    ensures var r := ApplySync(None, userId, submissions, None, now, true);
      && r.Success?
      && r.value.user_id == userId
      && r.value.progress_data.geeksforgeeks.None?
      && Questions(r.value) == QuestionsMap(submissions)
      && r.value.aggregated_stats == AggregatedStats(total_solved := CountSolved(QuestionsMap(submissions)))
  {
    var qm := QuestionsMap(submissions);
    MergeIntoAppends([], [], qm);
    UnseenNoneStored(qm);
    assert MergeQuestions([], qm) == qm;
  }

  lemma {:induction false} UnseenNoneStored(fetched: seq<Question>)
    ensures Unseen(fetched, []) == fetched
    decreases |fetched|
  {
    if |fetched| > 0 {
      UnseenNoneStored(fetched[1..]);
    }
  }

  /** A stored list without duplicate ids stays without duplicates. */
  lemma SyncKeepsUniqueIds(existing: Option<UserProgress>, userId: string, submissions: seq<Pagination.Submission>,
                           tagStats: Option<Value>, now: int, saved: bool)
    requires existing.Some? ==> UniqueIds(Questions(existing.value))
    ensures var r := ApplySync(existing, userId, submissions, tagStats, now, saved);
      r.Success? ==> UniqueIds(Questions(r.value))
  {
    var stored := if existing.Some? then Questions(existing.value) else [];
    SyncedQuestions(existing, userId, submissions, tagStats, now, saved);
    MergePreservesUniqueIds(stored, QuestionsMap(submissions));
  }

  /** The synced ids are the stored ids together with the fetched question ids. */
  lemma SyncedIds(existing: Option<UserProgress>, userId: string, submissions: seq<Pagination.Submission>,
                  tagStats: Option<Value>, now: int, saved: bool)
    ensures var r := ApplySync(existing, userId, submissions, tagStats, now, saved);
      var stored := if existing.Some? then Questions(existing.value) else [];
      r.Success? ==> forall k :: k in Ids(Questions(r.value)) <==> k in Ids(stored) || k in Keys(submissions)
  {
    var stored := if existing.Some? then Questions(existing.value) else [];
    SyncedQuestions(existing, userId, submissions, tagStats, now, saved);
    MergedIds(stored, QuestionsMap(submissions));
  }

  /** Fetching nothing leaves the stored questions as they were. */
  lemma EmptyFetchKeepsQuestions(stored: UserProgress, tagStats: Option<Value>, now: int)
    ensures var r := ApplySync(Some(stored), stored.user_id, [], tagStats, now, true);
      r.Success? ==> Questions(r.value) == Questions(stored)
  {
    SyncedQuestions(Some(stored), stored.user_id, [], tagStats, now, true);
    QuestionsMapIsFirstOccurrences([]);
    MergeNothing(Questions(stored));
  }

  /** Only the question list, total_solved, last_updated and, for a truthy
      tag answer, tag_stats and by_topic change. */
  lemma NothingElseChanges(existing: UserProgress, submissions: seq<Pagination.Submission>,
                           tagStats: Option<Value>, now: int)
    ensures var r := ApplySync(Some(existing), existing.user_id, submissions, tagStats, now, true);
      r.Success? ==>
      var u := r.value;
      var a := u.aggregated_stats;
      var b := existing.aggregated_stats;
      && u.user_id == existing.user_id
      && u.progress_data.geeksforgeeks == existing.progress_data.geeksforgeeks
      && a.by_difficulty == b.by_difficulty && a.by_language == b.by_language
      && a.problem_counts == b.problem_counts && a.calendar_stats == b.calendar_stats
      && a.badges == b.badges
  {
  }

  /** A falsy tag answer (None, `{}`) leaves tag_stats and by_topic as stored. */
  lemma FalsyTagStatsUntouched(existing: UserProgress, submissions: seq<Pagination.Submission>,
                               tagStats: Option<Value>, now: int)
    requires tagStats.None? || !Truthy(tagStats.value)
    ensures var r := ApplySync(Some(existing), existing.user_id, submissions, tagStats, now, true);
      && r.Success?
      && r.value.aggregated_stats.tag_stats == existing.aggregated_stats.tag_stats
      && r.value.aggregated_stats.by_topic == existing.aggregated_stats.by_topic
  {
  }

  /** The empty dict the query returns for a missing level behaves exactly
      like None. */
  lemma EmptyTagStatsLikeNone(existing: Option<UserProgress>, userId: string,
                              submissions: seq<Pagination.Submission>, now: int, saved: bool)
    ensures ApplySync(existing, userId, submissions, Some(EmptyObject), now, saved)
         == ApplySync(existing, userId, submissions, None, now, saved)
  {
  }

  /** A truthy answer whose tiers decode (a missing tier counting as empty,
      extra keys ignored) replaces all three tiers and rebuilds by_topic
      from them alone, whatever was stored before. */
  lemma TagStatsReplaced(existing: Option<UserProgress>, userId: string, submissions: seq<Pagination.Submission>,
                         v: Value, now: int)
    requires Truthy(v) && DecodeTagStats(v).Some?
    ensures var r := ApplySync(existing, userId, submissions, Some(v), now, true);
      && r.Success?
      && r.value.aggregated_stats.tag_stats == DecodeTagStats(v)
      && r.value.aggregated_stats.by_topic == TopicCounts(DecodeTagStats(v).value)
  {
  }

  /** In particular, tag statistics sent in the platform's format are
      stored as they are. */
  lemma PlatformTagStatsStored(existing: Option<UserProgress>, userId: string, submissions: seq<Pagination.Submission>,
                               ts: TagStats, now: int)
    requires Truthy(EncodeTagStats(ts))
    ensures var r := ApplySync(existing, userId, submissions, Some(EncodeTagStats(ts)), now, true);
      && r.Success?
      && r.value.aggregated_stats.tag_stats == Some(ts)
      && r.value.aggregated_stats.by_topic == TopicCounts(ts)
  {
    TagStatsRoundTrip(ts);
    TagStatsReplaced(existing, userId, submissions, EncodeTagStats(ts), now);
  }

  /** A truthy answer with a tier that cannot be iterated into tag objects
      (null, a number, a boolean, a non-empty string or dict) makes the sync
      raise. */
  lemma MalformedTierRaises(existing: Option<UserProgress>, userId: string, submissions: seq<Pagination.Submission>,
                            fields: map<string, Value>, tier: string, now: int, saved: bool)
    requires tier in {"advanced", "intermediate", "fundamental"}
    requires tier in fields
    requires !fields[tier].JArray? && fields[tier] != JString("") && fields[tier] != EmptyObject
    ensures ApplySync(existing, userId, submissions, Some(JObject(fields)), now, saved) == Failure(MalformedTagStats)
  {
    assert Truthy(JObject(fields)) by {
      assert tier in fields.Keys;
    }
    assert TierOf(JObject(fields), tier).None?;
  }

  /** A failed tag-stats query never breaks the sync: its None leaves the
      tag fields alone. */
  lemma TagQueryFailureHarmless(existing: UserProgress, pages: seq<seq<Pagination.Attempt>>, now: int)
    ensures var r := SyncUserSubmissions(Some(existing), existing.user_id, pages, TagStatsQuery.TransportError, now, true);
      && r.Success?
      && r.value.aggregated_stats.tag_stats == existing.aggregated_stats.tag_stats
      && r.value.aggregated_stats.by_topic == existing.aggregated_stats.by_topic
  {
    FalsyTagStatsUntouched(existing, Pagination.FetchAllSubmissions(pages, None).submissions, None, now);
  }

  /** Syncing the same submissions again adds no question: every fetched
      id is already stored after the first sync. */
  lemma ResyncAddsNothing(stored: seq<Question>, submissions: seq<Pagination.Submission>)
    ensures var once := MergeQuestions(stored, QuestionsMap(submissions));
      |MergeQuestions(once, QuestionsMap(submissions))| == |once|
  {
    var qm := QuestionsMap(submissions);
    var once := MergeQuestions(stored, qm);
    MergedIds(stored, qm);
    UnseenAllStored(qm, Ids(once));
  }

  lemma {:induction false} UnseenAllStored(fetched: seq<Question>, storedIds: seq<string>)
    requires forall k :: k in Ids(fetched) ==> k in storedIds
    ensures Unseen(fetched, storedIds) == []
    decreases |fetched|
  {
    if |fetched| > 0 {
      assert Ids(fetched)[0] == fetched[0].id;
      assert forall k :: k in Ids(fetched[1..]) ==> k in Ids(fetched);
      UnseenAllStored(fetched[1..], storedIds);
    }
  }

  // ---------------------------------------------------------------------
  // The service's test scenarios

  function TestSubmission(id: int, title: string, status: string, timestamp: int): (s: Pagination.Submission) {
    Pagination.Submission(id, id, title, "test-slug", status, timestamp, "100ms", "10MB", "python")
  }

  /** An empty fetch for a new user stores one record with an empty
      leetcode list and nothing solved. */
  lemma EmptySubmissionsScenario(now: int)
    ensures var r := ApplySync(None, "test_user", [], None, now, true);
      && r.Success?
      && r.value.progress_data.leetcode == Some(PlatformProgress([]))
      && r.value.aggregated_stats.total_solved == 0
  {
    NewUserSync("test_user", [], now);
    QuestionsMapIsFirstOccurrences([]);
  }

  /** Two accepted questions for a new user: both stored, both solved. */
  lemma FirstTimeSyncScenario(now: int)
    ensures var subs := [TestSubmission(1, "Two Sum", "Accepted", now),
                         TestSubmission(2, "Add Two Numbers", "Accepted", now - 3600)];
      var r := ApplySync(None, "test_user", subs, None, now, true);
      && r.Success?
      && r.value.user_id == "test_user"
      && |Questions(r.value)| == 2
      && CountSolved(Questions(r.value)) == 2
  {
    var subs := [TestSubmission(1, "Two Sum", "Accepted", now),
                 TestSubmission(2, "Add Two Numbers", "Accepted", now - 3600)];
    SmallKeysDistinct();
    assert QuestionKey(subs[0]) == "1" && QuestionKey(subs[1]) == "2";
    DistinctKeysAllKept(subs);
    NewUserSync("test_user", subs, now);
    var qm := QuestionsMap(subs);
    assert qm[0].status == Solved && qm[1].status == Solved;
    assert Statuses(qm) == [Solved] + [Solved];
    CountSolvedIsMultiplicity(qm);
  }

  /** A stored question "1" and a fetched question "2": the new question is
      appended after the stored one. */
  lemma ExistingDataScenario(now: int)
    ensures var stored := Question("1", "Two Sum", Solved, now - 7200, 1);
      var existing := UserProgress("test_user", ProgressData(Some(PlatformProgress([stored])), None),
                                   AggregatedStats(total_solved := 1), now - 7200);
      var subs := [TestSubmission(2, "Add Two Numbers", "Accepted", now)];
      var r := ApplySync(Some(existing), "test_user", subs, None, now, true);
      && r.Success?
      && Ids(Questions(r.value)) == ["1", "2"]
  {
    var stored := Question("1", "Two Sum", Solved, now - 7200, 1);
    var subs := [TestSubmission(2, "Add Two Numbers", "Accepted", now)];
    DistinctKeysAllKept(subs);
    var qm := QuestionsMap(subs);
    assert QuestionKey(subs[0]) == "2";
    assert qm == [NewQuestion(subs[0])];
    var merged := MergeQuestions([stored], qm);
    assert Unseen(qm, ["1"]) == [NewQuestion(subs[0])];
    MergeIntoStoredIds([stored], Ids([stored]), qm);
    assert merged[0].id == "1";
    assert merged[1..] == [NewQuestion(subs[0])];
    assert Ids(merged) == [merged[0].id, merged[1].id];
  }

  /** One accepted and two failed submissions: one question solved, two
      attempted. */
  lemma DifferentStatusesScenario(now: int)
    ensures var subs := [TestSubmission(1, "Question 1", "Accepted", now),
                         TestSubmission(2, "Question 2", "Wrong Answer", now - 3600),
                         TestSubmission(3, "Question 3", "Runtime Error", now - 7200)];
      var r := ApplySync(None, "test_user", subs, None, now, true);
      && r.Success?
      && |Questions(r.value)| == 3
      && multiset(Statuses(Questions(r.value)))[Solved] == 1
      && multiset(Statuses(Questions(r.value)))[Attempted] == 2
  {
    var subs := [TestSubmission(1, "Question 1", "Accepted", now),
                 TestSubmission(2, "Question 2", "Wrong Answer", now - 3600),
                 TestSubmission(3, "Question 3", "Runtime Error", now - 7200)];
    SmallKeysDistinct();
    assert QuestionKey(subs[0]) == "1" && QuestionKey(subs[1]) == "2" && QuestionKey(subs[2]) == "3";
    DistinctKeysAllKept(subs);
    NewUserSync("test_user", subs, now);
    var qm := QuestionsMap(subs);
    assert qm[0].status == Solved && qm[1].status == Attempted && qm[2].status == Attempted;
    assert Statuses(qm) == [Solved, Attempted, Attempted];
    OneSolvedTwoAttempted();
  }

  lemma OneSolvedTwoAttempted()
    ensures multiset([Solved, Attempted, Attempted])[Solved] == 1
    ensures multiset([Solved, Attempted, Attempted])[Attempted] == 2
  {
    assert Solved != Attempted;
    assert multiset([Solved, Attempted, Attempted]) == multiset{Solved, Attempted, Attempted};
  }

  /** The question keys of a fetch whose question ids are 1, 2 and 3 are
      pairwise different. */
  lemma SmallKeysDistinct()
    ensures Decimal.IntToString(1) == "1"
    ensures Decimal.IntToString(2) == "2"
    ensures Decimal.IntToString(3) == "3"
  {
  }
}

=== FILE: topics.dfy ===
/** The tag-statistics section of `AnalyticsService.sync_user_submissions`:
    turning the three skill tiers of the tag-stats answer into `TagStat`
    records, and folding them into the slug-keyed `by_topic` counts. */
module Topics {
  import opened Wrappers
  import opened Json
  import opened Models

  // ---------------------------------------------------------------------
  // TagStat(**tag)

  /** `TagStat(**tag)` for one decoded JSON entry: the entry must be an
      object carrying the three declared fields with their declared types;
      further keys are ignored. None stands for the exception pydantic (or
      the `**` unpacking of a non-mapping) raises. */
  function DecodeTagStat(j: Value): (r: Option<TagStat>)
    ensures r.Some? ==> j.JObject? && "tagSlug" in j.fields && j.fields["tagSlug"] == JString(r.value.tagSlug)
    ensures r.Some? ==> "problemsSolved" in j.fields && j.fields["problemsSolved"] == JNum(r.value.problemsSolved)
  {
    match j
    case JObject(f) =>
      if && "tagName" in f && f["tagName"].JString?
         && "tagSlug" in f && f["tagSlug"].JString?
         && "problemsSolved" in f && f["problemsSolved"].JNum?
      then Some(TagStat(f["tagName"].s, f["tagSlug"].s, f["problemsSolved"].n))
      else None
    case _ => None
  }

  /** The JSON object the platform sends for a tag. */
  function EncodeTagStat(t: TagStat): (v: Value) {
    JObject(map["tagName" := JString(t.tagName), "tagSlug" := JString(t.tagSlug),
                "problemsSolved" := JNum(t.problemsSolved)])
  }

  /** Every tag record survives the trip through its JSON form. */
  lemma TagStatRoundTrip(t: TagStat)
    ensures DecodeTagStat(EncodeTagStat(t)) == Some(t)
  {
  }

  /** Keys beyond the declared three do not change the decoded record. */
  lemma ExtraKeysIgnored(t: TagStat, extra: map<string, Value>)
    requires "tagName" !in extra && "tagSlug" !in extra && "problemsSolved" !in extra
    ensures DecodeTagStat(JObject(EncodeTagStat(t).fields + extra)) == Some(t)
  {
    var f := EncodeTagStat(t).fields + extra;
    assert f["tagName"] == JString(t.tagName);
    assert f["tagSlug"] == JString(t.tagSlug);
    assert f["problemsSolved"] == JNum(t.problemsSolved);
  }

  /** A tag entry lacking its slug is rejected. */
  lemma MissingSlugRejected(fields: map<string, Value>)
    requires "tagSlug" !in fields
    ensures DecodeTagStat(JObject(fields)).None?
  {
  }

  // ---------------------------------------------------------------------
  // One tier: [TagStat(**tag) for tag in tag_stats.get(tier, [])]

  /** The list comprehension over a JSON array: every entry must decode. */
  function DecodeTags(items: seq<Value>): (r: Option<seq<TagStat>>)
    ensures r.Some? ==> |r.value| == |items|
    decreases |items|
  {
    if |items| == 0 then Some([])
    else match DecodeTagStat(items[0])
      case None => None
      case Some(t) =>
        match DecodeTags(items[1..])
        case None => None
        case Some(ts) => Some([t] + ts)
  }

  /** A decoded tier holds, position by position, the decoded entries; it
      is None exactly when some entry does not decode. */
  lemma {:induction false} DecodeTagsContents(items: seq<Value>)
    ensures DecodeTags(items).Some? ==>
      forall i :: 0 <= i < |items| ==> DecodeTagStat(items[i]) == Some(DecodeTags(items).value[i])
    ensures DecodeTags(items).None? <==> exists i :: 0 <= i < |items| && DecodeTagStat(items[i]).None?
    decreases |items|
  {
    if |items| > 0 {
      var rest := items[1..];
      DecodeTagsContents(rest);
      assert forall i :: 0 < i < |items| ==> items[i] == rest[i - 1];
      if DecodeTags(rest).None? {
        var i :| 0 <= i < |rest| && DecodeTagStat(rest[i]).None?;
        assert DecodeTagStat(items[i + 1]).None?;
      }
    }
  }

  function EncodeTags(ts: seq<TagStat>): (items: seq<Value>)
    ensures |items| == |ts|
    ensures forall i :: 0 <= i < |ts| ==> items[i] == EncodeTagStat(ts[i])
  {
    seq(|ts|, i requires 0 <= i < |ts| => EncodeTagStat(ts[i]))
  }

  /** A tier sent in the platform's own format decodes back to its tags. */
  lemma {:induction false} TagsRoundTrip(ts: seq<TagStat>)
    ensures DecodeTags(EncodeTags(ts)) == Some(ts)
    decreases |ts|
  {
    if |ts| > 0 {
      TagsRoundTrip(ts[1..]);
      assert EncodeTags(ts)[1..] == EncodeTags(ts[1..]);
      TagStatRoundTrip(ts[0]);
      assert [ts[0]] + ts[1..] == ts;
    }
  }

  /** Iterating the value found under a tier key. A list is decoded entry by
      entry; the other empty iterables (`""`, `{}`) give no tags; iterating
      a non-empty string or dict yields strings, which `**` rejects; `null`,
      numbers and booleans are not iterable. */
  function DecodeTier(v: Value): (r: Option<seq<TagStat>>)
    ensures v.JArray? ==> r == DecodeTags(v.items)
    ensures !v.JArray? ==> (r.Some? <==> v == JString("") || v == EmptyObject)
    ensures r.Some? && !v.JArray? ==> r.value == []
  {
    match v
    case JArray(items) => DecodeTags(items)
    case JString(s) => if s == "" then Some([]) else None
    case JObject(f) => if f == map[] then Some([]) else None
    case _ => None
  }

  /** `tag_stats.get(tier, [])` followed by the tier decoding; None also when
      `tag_stats` is not a dict. */
  function TierOf(tagStats: Value, tier: string): (r: Option<seq<TagStat>>)
    ensures tagStats.JObject? && tier !in tagStats.fields ==> r == Some([])
    ensures tagStats.JObject? && tier in tagStats.fields ==> r == DecodeTier(tagStats.fields[tier])
    ensures !tagStats.JObject? ==> r.None?
  {
    match Get(tagStats, tier, JArray([]))
    case None => None
    case Some(v) => DecodeTier(v)
  }

  /** The replacement `TagStats` record, or None when constructing it raises. */
  function DecodeTagStats(tagStats: Value): (r: Option<TagStats>)
    ensures r.Some? <==> TierOf(tagStats, "advanced").Some? && TierOf(tagStats, "intermediate").Some?
                         && TierOf(tagStats, "fundamental").Some?
    ensures r.Some? ==> r.value.advanced == TierOf(tagStats, "advanced").value
    ensures r.Some? ==> r.value.intermediate == TierOf(tagStats, "intermediate").value
    ensures r.Some? ==> r.value.fundamental == TierOf(tagStats, "fundamental").value
  {
    match (TierOf(tagStats, "advanced"), TierOf(tagStats, "intermediate"), TierOf(tagStats, "fundamental"))
    case (Some(a), Some(i), Some(f)) => Some(TagStats(a, i, f))
    case _ => None
  }

  /** The JSON form of a whole `TagStats` record. */
  function EncodeTagStats(ts: TagStats): (v: Value) {
    JObject(map["advanced" := JArray(EncodeTags(ts.advanced)),
                "intermediate" := JArray(EncodeTags(ts.intermediate)),
                "fundamental" := JArray(EncodeTags(ts.fundamental))])
  }

  /** A record sent in the platform's format decodes back to itself. */
  lemma TagStatsRoundTrip(ts: TagStats)
    ensures DecodeTagStats(EncodeTagStats(ts)) == Some(ts)
  {
    TagsRoundTrip(ts.advanced);
    TagsRoundTrip(ts.intermediate);
    TagsRoundTrip(ts.fundamental);
  }

  /** A tier key that is absent gives an empty tier. */
  lemma MissingTierIsEmpty(fields: map<string, Value>)
    requires "fundamental" in fields && fields["fundamental"].JArray?
    requires "advanced" !in fields && "intermediate" !in fields
    ensures var r := DecodeTagStats(JObject(fields));
      r.Some? <==> DecodeTags(fields["fundamental"].items).Some?
    ensures var r := DecodeTagStats(JObject(fields));
      r.Some? ==> r.value.advanced == [] && r.value.intermediate == []
  {
  }

  // ---------------------------------------------------------------------
  // by_topic

  function Slugs(tags: seq<TagStat>): (slugs: seq<string>)
    ensures |slugs| == |tags|
    ensures forall i :: 0 <= i < |tags| ==> slugs[i] == tags[i].tagSlug
  {
    seq(|tags|, i requires 0 <= i < |tags| => tags[i].tagSlug)
  }

  /** `topic_counts[tag["tagSlug"]] = tag["problemsSolved"]` over the tags in
      order: a later tag overwrites an earlier one with the same slug. */
  function ByTopic(tags: seq<TagStat>): (counts: map<string, int>)
    // every tag's slug gets a count
    ensures forall i :: 0 <= i < |tags| ==> tags[i].tagSlug in counts
    decreases |tags|
  {
    if |tags| == 0 then map[]
    else
      var last := tags[|tags| - 1];
      ByTopic(tags[..|tags| - 1])[last.tagSlug := last.problemsSolved]
  }

  /** The counts are keyed by exactly the slugs of the tags. */
  lemma {:induction false} ByTopicKeys(tags: seq<TagStat>)
    ensures forall k :: k in ByTopic(tags) <==> k in Slugs(tags)
    decreases |tags|
  {
    if |tags| > 0 {
      var init := tags[..|tags| - 1];
      ByTopicKeys(init);
      assert Slugs(tags) == Slugs(init) + [tags[|tags| - 1].tagSlug];
    }
  }

  /** The count of a slug is that of the last tag carrying it. */
  lemma {:induction false} ByTopicLastWins(tags: seq<TagStat>, i: int)
    requires 0 <= i < |tags|
    requires forall j :: i < j < |tags| ==> tags[j].tagSlug != tags[i].tagSlug
    ensures tags[i].tagSlug in ByTopic(tags)
    ensures ByTopic(tags)[tags[i].tagSlug] == tags[i].problemsSolved
    decreases |tags|
  {
    if i < |tags| - 1 {
      var init := tags[..|tags| - 1];
      assert init[i] == tags[i];
      ByTopicLastWins(init, i);
    }
  }

  /** Folding a concatenation is the right-biased union of the two folds. */
  lemma {:induction false} ByTopicAppend(a: seq<TagStat>, b: seq<TagStat>)
    ensures ByTopic(a + b) == ByTopic(a) + ByTopic(b)
    decreases |b|
  {
    if |b| == 0 {
      assert a + b == a;
    } else {
      var b' := b[..|b| - 1];
      assert (a + b)[..|a + b| - 1] == a + b';
      ByTopicAppend(a, b');
    }
  }

  /** `by_topic` rebuilt from the three tiers in the order advanced,
      intermediate, fundamental. */
  function TopicCounts(ts: TagStats): (m: map<string, int>)
    ensures m == ByTopic(ts.advanced) + ByTopic(ts.intermediate) + ByTopic(ts.fundamental)
  {
    ByTopicAppend(ts.advanced, ts.intermediate);
    ByTopicAppend(ts.advanced + ts.intermediate, ts.fundamental);
    ByTopic(ts.advanced + ts.intermediate + ts.fundamental)
  }

  /** Precedence on a slug collision: fundamental beats intermediate, which
      beats advanced. */
  lemma TierPrecedence(ts: TagStats, k: string)
    ensures k in ByTopic(ts.fundamental) ==> k in TopicCounts(ts) && TopicCounts(ts)[k] == ByTopic(ts.fundamental)[k]
    ensures k !in ByTopic(ts.fundamental) && k in ByTopic(ts.intermediate) ==>
      k in TopicCounts(ts) && TopicCounts(ts)[k] == ByTopic(ts.intermediate)[k]
    ensures k !in ByTopic(ts.fundamental) && k !in ByTopic(ts.intermediate) ==>
      (k in TopicCounts(ts) <==> k in ByTopic(ts.advanced))
    ensures k !in ByTopic(ts.fundamental) && k !in ByTopic(ts.intermediate) && k in ByTopic(ts.advanced) ==>
      TopicCounts(ts)[k] == ByTopic(ts.advanced)[k]
  {
  }

  /** The keys of `by_topic` are the slugs of all three tiers. */
  lemma TopicCountsKeys(ts: TagStats)
    ensures forall k :: k in TopicCounts(ts) <==>
      k in Slugs(ts.advanced) || k in Slugs(ts.intermediate) || k in Slugs(ts.fundamental)
  {
    ByTopicKeys(ts.advanced);
    ByTopicKeys(ts.intermediate);
    ByTopicKeys(ts.fundamental);
  }
}

=== FILE: wrappers.dfy ===
/** Plain wrapper datatypes: Option for Python's `Optional` slots and
    missing values, Result for operations that may raise. */
module Wrappers {

  datatype Option<+T> = None | Some(value: T) {

    /** The wrapped value, or `default` when absent: `d.get(key, default)`
        on a response field, with a JSON null read as an absent key. */
    function GetOr(default: T): (r: T) {
      match this
      case Some(v) => v
      case None => default
    }
  }

  /** Success carries the value an operation returns; Failure the exception it raises. */
  datatype Result<+R, +E> = Success(value: R) | Failure(error: E)
}
